=== FILE: README.md ===
# A verified model of the notes client's session, validation and display logic

This project models the decision logic of a React single-page client for a
note-taking service, in Dafny. It covers the authentication store, the API
helpers, the form validators and the theme store. It also covers the small
string and number helpers behind the sidebar, the navigation bar and the
dashboard. Each piece becomes an immutable datatype with total functions, and
the properties the code promises are proved about them.

Modules, one per source concern:

- `Common`:
  - optional values and JavaScript truthiness of optional strings;
  - ASCII `trim`, `split`, `toUpperCase`, `startsWith`;
  - decimal rendering.
- `Api` (`src/services/api.js`):
  - error classification and error-message priority;
  - pagination and query-parameter filtering;
  - the bearer header;
  - the exponential-backoff `retry`.
- `AuthReducer`, `TokenExpiry`, `Session` (`src/contexts/AuthContext.jsx`):
  - the reducer;
  - the token-expiry effect and `isTokenExpired`;
  - the session operations, each one atomic step. The remote call an operation
    awaits is an input: what the server answered, or the error it rejected with.
- `FormValidation` (`src/components/UI/Form.js`): the `useFormValidation` hook.
- `PageValidation`, `RegisterPage`, `LoginPage` (`src/pages/RegisterPage.js`,
  `src/pages/LoginPage.js`): the page validators and change handlers.
- `Theme` (`src/contexts/NotificationContext.js`): despite its file name, this
  file holds the theme provider.
- `Sidebar`, `Navbar`, `Dashboard`: the layout and dashboard helpers.

Facts about the code the model states directly:

- The session does not keep user and token together. `LOAD_USER_SUCCESS`
  authenticates and sets the user without a token, and a refresh can install
  a token next to a null user. The model proves the invariant the code does
  keep: a present token implies an authenticated session
  (`AuthReducer.ReachableKeepsInvariant`). It also exhibits the other
  direction failing (`AuthReducer.AuthenticatedWithoutToken`).
- The token payload is decoded with `atob`. That accepts the standard base64
  alphabet of section 4 of RFC 4648, not the URL-safe alphabet of section 5
  used by JSON Web Tokens (RFC 7519). A payload segment with `-` or `_`
  therefore counts as unreadable and logs the session out
  (`TokenExpiry.UrlSafeSegmentIsMalformed`).

## Model

| member | source | states |
|---|---|---|
| AuthReducer.Reduce | src/contexts/AuthContext.jsx:31-121 | every action keeps "a token is held only by an authenticated session", and an action that installs a new token authenticates |
| AuthReducer.RunKeepsInvariant | src/contexts/AuthContext.jsx:31-121 | any sequence of actions from a state with the invariant ends in a state with it |
| AuthReducer.ReachableKeepsInvariant | src/contexts/AuthContext.jsx:5-11 | every state reachable from the initial state holds a token only while authenticated |
| AuthReducer.SuccessInstallsSession | src/contexts/AuthContext.jsx:41-50 | login and register success set user and token from the payload, authenticate, stop loading and clear the error |
| AuthReducer.FailureDropsSession | src/contexts/AuthContext.jsx:52-61 | login and register failures drop user and token, de-authenticate, stop loading and record the message |
| AuthReducer.LoadUserFailureDropsSession | src/contexts/AuthContext.jsx:90-97 | a failed user load drops user and token, de-authenticates, stops loading and records the message |
| AuthReducer.LogoutDropsSession | src/contexts/AuthContext.jsx:63-71 | logout clears user, token and error and both flags |
| AuthReducer.StartKeepsSession | src/contexts/AuthContext.jsx:33-39 | starting a login or registration raises loading and clears the error without touching the session |
| AuthReducer.LoadUserStartKeepsSession | src/contexts/AuthContext.jsx:73-78 | starting a user load raises loading and clears the error without touching the session |
| AuthReducer.SingleFieldActions | src/contexts/AuthContext.jsx:106-119 | clearing the error changes only the error, setting loading only the flag, an unknown action nothing |
| AuthReducer.UpdateUserMerges | src/contexts/AuthContext.jsx:99-104 | updating the user merges the changes over the old user (changes win) and keeps token and authentication |
| AuthReducer.AuthenticatedWithoutToken | src/contexts/AuthContext.jsx:80-87 | a loaded user is authenticated without a token, so "authenticated implies token" does not hold |
| TokenExpiry.PayloadSegment | src/contexts/AuthContext.jsx:139 | the segment exists exactly when the token contains a `.`, and then it is the second `.`-separated piece |
| TokenExpiry.ReadClaim | src/contexts/AuthContext.jsx:139 | a token without `.` or whose payload has characters outside the base64 alphabet is unreadable; otherwise the claim is the decoder's reading of the payload segment |
| TokenExpiry.PayloadOfAssembledToken | src/contexts/AuthContext.jsx:139 | a token built as `header.payload.signature` yields exactly `payload` as its segment, and its claim is the decoder's reading of it, or unreadable outside the base64 alphabet |
| TokenExpiry.UrlSafeSegmentIsMalformed | src/contexts/AuthContext.jsx:139 | a payload in the URL-safe alphabet never decodes |
| TokenExpiry.Decide | src/contexts/AuthContext.jsx:136-157 | no token: nothing; unreadable or `exp*1000 <= now`: logout now; otherwise one timer of `exp*1000 - now > 0` ms (zero for a non-numeric `exp`) |
| TokenExpiry.DecideAgreesWithIsTokenExpired | src/contexts/AuthContext.jsx:342-352 | for a present token with a numeric or unreadable claim, immediate logout happens exactly when `isTokenExpired` holds; the two differ on a missing token and a non-numeric `exp` |
| TokenExpiry.OnTokenChange | src/contexts/AuthContext.jsx:136-157 | after a token change at most one timer is armed, never alongside an immediate logout; logout is immediate or armed exactly as the effect decides; the timer fires after the host's delay, never in the past and at most 2^31-1 ms ahead |
| TokenExpiry.TimerFiresAtExpiry | src/contexts/AuthContext.jsx:143-150 | for a valid token that expires within 2^31-1 ms, the timer fires exactly when `isTokenExpired` starts to hold |
| TokenExpiry.ExpiredLogsOutAtOnce | src/contexts/AuthContext.jsx:143-144 | an expired or unreadable token is logged out at once with no timer |
| TokenExpiry.HostDelay | src/contexts/AuthContext.jsx:148 | the delay a browser waits is always within `[0, 2^31-1]` and equals the request when it fits |
| TokenExpiry.LongLivedTokenLogsOutEarly | src/contexts/AuthContext.jsx:147-148 | a token valid for thirty more days is logged out immediately although it is not expired |
| TokenExpiry.SixtyDayTokenLogsOutAfterTenDays | src/contexts/AuthContext.jsx:147-148 | a token valid for sixty more days is logged out after the delay's remainder modulo 2^32, 889,032,704 ms (about ten days), although it is not expired |
| TokenExpiry.LogoutTimeCapped | src/contexts/AuthContext.jsx:140-150 | arming with a capped delay and re-deciding logs out exactly at the expiry time |
| TokenExpiry.CappedTimerLogsOutAtExpiry | src/contexts/AuthContext.jsx:342-352 | with capped re-arming the session is never logged out while `isTokenExpired` is false, and is logged out once it holds |
| Session.FailureMessage | src/contexts/AuthContext.jsx:222 | the server's `data.error` when truthy, otherwise the operation's fallback |
| Session.Authenticate | src/contexts/AuthContext.jsx:202-259 | success persists the token, sets the bearer header and installs the session; failure records the message and leaves storage and headers; the invariant is kept |
| Session.Login | src/contexts/AuthContext.jsx:202-229 | never throws; fails with the server message or "Login failed"; succeeds exactly when the session ends authenticated |
| Session.Register | src/contexts/AuthContext.jsx:232-259 | never throws; fails with the server message or "Registration failed"; succeeds exactly when the session ends authenticated |
| Session.Logout | src/contexts/AuthContext.jsx:262-276 | the remote endpoint is called exactly when a token is held; storage and header are always cleared and logout always dispatched |
| Session.LoadUser | src/contexts/AuthContext.jsx:160-199 | without a stored token: "No token found" with user and token dropped; with one: success authenticates with the stored token and the answered user, failure drops user and token and clears storage and header |
| Session.UpdateProfile | src/contexts/AuthContext.jsx:279-291 | success merges the returned fields over the user (new fields win, the others keep their values), clears the error and keeps token, authentication and loading; failure leaves the session and reports the message or "Failed to update profile" |
| Session.ChangePassword | src/contexts/AuthContext.jsx:294-302 | succeeds exactly when the server accepts; otherwise the message or "Failed to change password" |
| Session.RefreshToken | src/contexts/AuthContext.jsx:305-323 | success persists the new token beside the current user; failure is exactly a logout |
| Session.ClearError | src/contexts/AuthContext.jsx:326-328 | only the error is cleared |
| Session.RejectedLoginScenario | src/contexts/AuthContext.jsx:221-227 | a login rejected with "Invalid credentials" ends token-less and reports that message |
| Session.ExpiredLoginIsLoggedOut | src/contexts/AuthContext.jsx:136-157 | a login whose token is already expired triggers the immediate logout, which leaves no session and no stored token |
| Api.HandleError | src/services/api.js:241-249 | a response gives its `data.error` or "An error occurred"; a request without response the network message; otherwise the unexpected-error message |
| Api.ParseErrorMessage | src/services/api.js:270-275 | a thrown string wins, then a truthy `message`, then `data.error`, then the default |
| Api.NetworkAndAuthDisjoint | src/services/api.js:278-285 | no error is both a network error and an authorization error; authorization errors carry 401 or 403 |
| Api.HandleErrorNetworkIff | src/services/api.js:241-249 | `handleError` gives the network message exactly for network errors, unless a server sends that sentence itself |
| Api.ParseAndHandleCompared | src/services/api.js:241-275 | the two extractors agree on server-answered errors without a message and disagree on network errors |
| Api.FormatPaginationParams | src/services/api.js:252-255 | the limit is passed through and the offset is `(page - 1) * limit` for every limit; for a positive limit the offset is a whole number of pages and the page number can be read back from it |
| Api.PaginationDefaults | src/services/api.js:252 | with no arguments: offset 0, limit 20 |
| Api.QueryParams | src/services/api.js:133-137 | exactly the parameters that are not `undefined`, `null` or `''` are kept |
| Api.QueryParamsAppend | src/services/api.js:158-162 | filtering distributes over concatenation, so the kept parameters keep their order |
| Api.QueryParamsIdempotent | src/services/api.js:171-175 | filtering a filtered list changes nothing |
| Api.SetAuthToken | src/services/api.js:89-95 | a truthy token sets the header to "Bearer " + token, a falsy one removes it; other headers are untouched |
| Api.RemoveAuthToken | src/services/api.js:98-100 | the header is removed and other headers are untouched |
| Api.BearerRoundTrip | src/services/api.js:89-100 | reading the token back off a set header gives the token; a falsy token and removal leave none |
| Api.Retry | src/services/api.js:288-299 | at most `retries` calls, none when `retries <= 0`; the first success is returned; a non-network error is rethrown at once and the last error on the final attempt; attempt `i` is followed by a wait of `delay*2^i` |
| Api.RetryDefaults | src/services/api.js:288 | with the default arguments (3 attempts, 1000 ms) at most three calls are made and the waits are 1000 ms then 2000 ms, as many as the failed attempts before the last call |
| FormValidation.FirstFailure | src/components/UI/Form.js:695-699 | the first non-empty rule message in order, `''` exactly when every rule passes |
| FormValidation.ValidateField | src/components/UI/Form.js:691-700 | `''` without rules; otherwise the first failing rule's message, `''` exactly when all pass |
| FormValidation.HandleChange | src/components/UI/Form.js:702-709 | the value is always stored; the field's error is recomputed only when the field is touched |
| FormValidation.HandleBlur | src/components/UI/Form.js:711-715 | the field becomes touched and its error is set from its current value; other errors stay |
| FormValidation.ValidateAll | src/components/UI/Form.js:717-736 | errors become exactly the failing fields, touched becomes exactly the rule-bearing fields, and the result is true exactly when no field fails |
| FormValidation.Reset | src/components/UI/Form.js:738-742 | back to the initial values with no errors and nothing touched |
| FormValidation.ValidateAllAgreesWithIsValid | src/components/UI/Form.js:729-752 | right after `validateAll`, `isValid` equals its result |
| FormValidation.BlurValidFieldMakesFormInvalid | src/components/UI/Form.js:713-714 | blurring a valid field stores `''`, which makes `isValid` false |
| FormValidation.ChangeUntouchedKeepsErrors | src/components/UI/Form.js:705-708 | editing an untouched field changes no error |
| FormValidation.ResetIsValid | src/components/UI/Form.js:738-752 | after `reset` the form is valid and untouched |
| PageValidation.EmailLikeUnanchored | src/pages/RegisterPage.js:268 | surrounding text never stops the email pattern from matching |
| PageValidation.EmailLikeNeedsAt | src/pages/RegisterPage.js:268 | text without `@` never matches |
| PageValidation.EmailExamples | src/pages/LoginPage.js:251 | "a@b.c" matches; "a@ b.c" does not |
| PageValidation.EmailError | src/pages/RegisterPage.js:266-270 | no message exactly when the pattern matches; "Email is required" exactly for the empty string |
| PageValidation.AnyChar | src/pages/RegisterPage.js:250-252 | true exactly when some character is in the class |
| PageValidation.ClearFieldError | src/pages/RegisterPage.js:300-302 | the edited field's message is blanked, its key kept, every other message unchanged |
| PageValidation.ClearGlobalError | src/pages/RegisterPage.js:305-307 | the store's error is cleared if set and nothing else of the store changes |
| PageValidation.HandleChange | src/pages/RegisterPage.js:296-308 | the change handler both pages share (the login page's is the same, src/pages/LoginPage.js:266-278): stores the edited data, blanks only the edited field's message, keeps every other message and clears the store's error |
| RegisterPage.PasswordRequirements | src/pages/RegisterPage.js:246-254 | length at least 6, and an ASCII upper-case letter, lower-case letter and digit each occur |
| RegisterPage.NameError | src/pages/RegisterPage.js:260-264 | "Full name is required" exactly for a blank name; "Name must be at least 2 characters" exactly for a non-blank name trimming to fewer than 2 characters; no message otherwise |
| RegisterPage.PasswordError | src/pages/RegisterPage.js:272-279 | "Password is required" exactly for the empty password; "Password must meet all requirements" exactly for a non-empty password missing one; no message exactly when all four hold |
| RegisterPage.ConfirmError | src/pages/RegisterPage.js:281-285 | "Please confirm your password" exactly for an empty confirmation; "Passwords do not match" exactly for a non-empty one that differs; no message otherwise |
| RegisterPage.ValidateForm | src/pages/RegisterPage.js:257-293 | each field has a message exactly when it is unacceptable, that message is its check's; the result is true exactly when there are none |
| RegisterPage.AcceptedIff | src/pages/RegisterPage.js:257-293 | the form is accepted exactly when name, email, the password requirements, the confirmation and the terms are all acceptable |
| RegisterPage.EmptyFormReportsEveryField | src/pages/RegisterPage.js:223-229 | the initial form reports each field's "required" message |
| RegisterPage.ChangeKeepsOtherFields | src/pages/RegisterPage.js:296-308 | after an edit every other field keeps its shown message and its verdict, except the confirmation after a password edit |
| RegisterPage.EditAffectsOwnField | src/pages/RegisterPage.js:296-297 | an edit changes no other field's verdict, except a password edit on the confirmation's |
| LoginPage.RedirectTarget | src/pages/LoginPage.js:243 | the recorded pathname when present, "/dashboard" otherwise |
| LoginPage.DefaultTargetIsDashboardLink | src/pages/LoginPage.js:243 | without a recorded page a login lands on the sidebar's dashboard link, which is then active; a recorded page is used as is |
| LoginPage.PasswordError | src/pages/LoginPage.js:255-259 | "Password is required" exactly for the empty password; "Password must be at least 6 characters" exactly for 1 to 5 characters; no message from 6 characters on |
| LoginPage.ValidateForm | src/pages/LoginPage.js:246-263 | email and password messages exactly when unacceptable; the result is true exactly when there are none |
| LoginPage.AcceptedIff | src/pages/LoginPage.js:246-263 | accepted exactly when the email matches and the password has at least 6 characters |
| LoginPage.DigitsOnlyPasswordAccepted | src/pages/LoginPage.js:255-259 | there is no character-class check: "123456" passes |
| LoginPage.ChangeKeepsOtherFields | src/pages/LoginPage.js:266-278 | after an edit every other field keeps its shown message and its verdict |
| LoginPage.EditAffectsOwnField | src/pages/LoginPage.js:266-267 | an edit changes no other field's verdict |
| Theme.Reduce | src/contexts/NotificationContext.js:193-228 | setting theme, font size or sidebar changes that field only; toggling maps light to dark and all else to light; reset restores the initial state but keeps the themes; unknown actions change nothing |
| Theme.ToggleTwice | src/contexts/NotificationContext.js:201-205 | toggling twice is the identity on light and dark |
| Theme.ResetIdempotent | src/contexts/NotificationContext.js:219-223 | reset keeps the theme table and a second reset changes nothing |
| Theme.ParseFlag | src/contexts/NotificationContext.js:252-256 | only "true" and "false" parse to a flag |
| Theme.Dispatches | src/contexts/NotificationContext.js:244-308 | every theme name the provider dispatches is in the table or is light or dark |
| Theme.RunActionsKeepsThemes | src/contexts/NotificationContext.js:193-228 | no action sequence changes the theme table |
| Theme.CommandKeepsGood | src/contexts/NotificationContext.js:244-308 | every provider command keeps the current theme light or dark |
| Theme.ReachableIsGood | src/contexts/NotificationContext.js:177-308 | every command sequence from a good state keeps the current theme light or dark |
| Theme.UnguardedSetThemeBreaksInvariant | src/contexts/NotificationContext.js:304-308 | without the guard an unknown theme would become current; with it the command is ignored |
| Theme.SavedThemeWins | src/contexts/NotificationContext.js:280-298 | a saved theme makes the system preference irrelevant |
| Theme.RestoredTheme | src/contexts/NotificationContext.js:238-261 | restoring saved preferences lands on the saved theme when it is light or dark, otherwise on the initial light theme |
| Theme.SystemPreferenceIgnoredOnMount | src/contexts/NotificationContext.js:263-297 | as written, the theme after mounting depends only on the saved theme, never on the system colour scheme: a first visit with a dark scheme shows light |
| Theme.MountFollowsSystemPreference | src/contexts/NotificationContext.js:276-297 | when the check reads storage as it was before mounting, a saved light or dark theme wins, nothing saved follows the system scheme, and the store stays good |
| Theme.GetCurrentTheme | src/contexts/NotificationContext.js:330-342 | the current theme with only the `base` font size replaced by the chosen size's entry (undefined if none) |
| Theme.DefaultSizeIsIdentity | src/contexts/NotificationContext.js:330-342 | with the default size the theme is handed out unchanged |
| Theme.ChosenSizeBecomesBase | src/contexts/NotificationContext.js:90-98 | "lg" makes the base 1.125rem and leaves the scale alone; an unknown size leaves the base undefined |
| Theme.DarkXorLight | src/contexts/NotificationContext.js:345-346 | in a good state exactly one of `isDark` and `isLight` holds, and toggling swaps them |
| Sidebar.NoteTokens | src/components/Layout/Sidebar.js:305-314 | a tagless note has no tokens; every token is a non-empty, comma-free trimmed piece of the split, and every non-blank piece gives a token |
| Sidebar.NoteTokensOfOneTag | src/components/Layout/Sidebar.js:307-312 | a tag list without commas gives its trimmed text as the only token, or none when blank |
| Sidebar.NoteTokensConcat | src/components/Layout/Sidebar.js:307 | the tokens of `a,b` are those of `a` followed by those of `b`, which fixes the tokens and their order |
| Sidebar.Tally | src/components/Layout/Sidebar.js:304-314 | one positive counter per distinct tag, whose count is the tag's number of occurrences |
| Sidebar.TallySum | src/components/Layout/Sidebar.js:309-310 | the counters sum to the number of tokens |
| Sidebar.CountsSumToTokens | src/components/Layout/Sidebar.js:304-314 | over all notes, repeats within one note included, the counts sum to the number of non-empty tokens |
| Sidebar.SortDesc | src/components/Layout/Sidebar.js:318 | the sort is a permutation ordered by non-increasing count |
| Sidebar.InsertSorted | src/components/Layout/Sidebar.js:318 | inserting into a sorted list keeps it sorted |
| Sidebar.DistinctPermutation | src/components/Layout/Sidebar.js:317-318 | sorting cannot repeat a tag |
| Sidebar.CommonTags | src/components/Layout/Sidebar.js:304-322 | at most ten distinct tags, by non-increasing count, each with its occurrence count; any omitted tag means ten are shown and is no more frequent than the last |
| Sidebar.IsActive | src/components/Layout/Sidebar.js:334-339 | the dashboard link needs exact equality, every other link a prefix |
| Sidebar.ActiveBelow | src/components/Layout/Sidebar.js:334-339 | every link is active on its own page; other links stay active on pages nested below, the dashboard link never on both a page and one nested below it |
| Sidebar.ActiveExamples | src/components/Layout/Sidebar.js:334-339 | nested pages activate their link except under the dashboard; a sibling sharing a prefix activates too |
| Sidebar.ShowBadge | src/components/Layout/Sidebar.js:406 | a badge shows exactly when present and positive |
| Navbar.BadgesAgree | src/components/Layout/Navbar.js:399-401 | the bell's badge shows exactly for the counts for which a sidebar item's badge shows |
| Navbar.HandleSearch | src/components/Layout/Navbar.js:298-303 | acts exactly for a non-blank query, and then searches for the trimmed query |
| Navbar.SearchIgnoresSurroundingBlanks | src/components/Layout/Navbar.js:299-300 | searching for the trimmed query is the same as searching for the query |
| Navbar.HeadsOfSplit | src/components/Layout/Navbar.js:320 | the heads of the space-split words are the non-space characters that start the name or follow a space |
| Navbar.Initials | src/components/Layout/Navbar.js:318-322 | at most two characters; "U" when there is no name or it is empty |
| Navbar.InitialsAreWordStarts | src/components/Layout/Navbar.js:318-322 | the initials are the first two word starts upper-cased; they are empty only for a name of spaces |
| Navbar.BadgeText | src/components/Layout/Navbar.js:399-401 | shown exactly for a positive count; "9+" above nine, one digit otherwise |
| Navbar.BadgeReadsBack | src/components/Layout/Navbar.js:401 | a single-digit badge reads back as the count |
| Dashboard.HoursBetween | src/pages/DashboardPage.js:442 | the whole number of hours elapsed, rounded down |
| Dashboard.FormatDate | src/pages/DashboardPage.js:439-448 | under an hour (future included): "Just now"; 1-23 hours: the hour count; 24-47: "Yesterday"; older or unparsable: the locale date |
| Dashboard.HoursAgoReadsBack | src/pages/DashboardPage.js:445 | "<h>h ago" reads back as the hour count |
| Dashboard.LabelsAge | src/pages/DashboardPage.js:442-447 | as time passes a label only gets older and the hour count never decreases |
| Dashboard.FutureIsJustNow | src/pages/DashboardPage.js:444 | a future date reads "Just now" |
| Dashboard.IconFor | src/pages/DashboardPage.js:451-456 | "public" gives the eye, "shared" the share icon, anything else the document |
| Dashboard.ToneFor | src/pages/DashboardPage.js:237-250 | "public" gives the success colour, "shared" the info colour, anything else the secondary colour |
| Dashboard.IconAndToneAgree | src/pages/DashboardPage.js:237-250 | icon and colour follow the same three-way split |
| Dashboard.CardTagCount | src/pages/DashboardPage.js:561-564 | shown for notes with tags, as the number of commas plus one |
| Dashboard.CardCountsAtLeastSidebar | src/pages/DashboardPage.js:564 | the card never counts fewer tags than the sidebar finds, and counts blank pieces the sidebar drops |
| Dashboard.FirstName | src/pages/DashboardPage.js:468 | the prefix of the name up to its first space, empty without a name |
| Dashboard.FirstNameIsLongest | src/pages/DashboardPage.js:468 | no longer space-free prefix exists |
| Common.Trim | src/pages/RegisterPage.js:260-262 | a slice of the input, empty exactly for blank input, with non-blank ends |
| Common.SplitJoin | src/components/Layout/Sidebar.js:307 | joining the split pieces with the separator gives the text back |
| Common.SplitConcat | src/components/Layout/Sidebar.js:307 | splitting text joined at a separator splits each side separately |
| Common.SplitLength | src/pages/DashboardPage.js:564 | there is one more piece than separators |
| Common.DecimalRoundTrip | src/components/Layout/Navbar.js:401 | reading back a rendered number gives the number |

## Left out

- Transport: the HTTP client, its interceptors (the 401 redirect), the service endpoints and `encodeURIComponent` of the search path. Remote calls appear only as their outcome.
- Local storage, `window.location`, the media query and real timers. They appear as a stored-token field, command inputs and one timer slot.
- React semantics: effects, batched state updates and re-renders. Each handler is one atomic transition on the state before the call; rules see the values as they were before the change.
- Overlapping asynchronous operations, where the last write wins. This is a concurrency concern.
- Token decoding: `atob`, `JSON.parse` and the read of `exp` are a parameter of the model. A fractional `exp` is not modelled; claims are integer seconds.
- Unicode: `trim`, `\s`, `\S`, `toUpperCase` and the regular-expression classes are modelled on ASCII only.
- `toLocaleDateString`: the text of an older date is host-formatted and appears only as a label carrying the date.
- Object key order: integer-like tag names come first in JavaScript objects. The model keeps first-occurrence order instead. This decides the order among equal counts and which of several tags tied at the tenth count survive `.slice(0, 10)`; the contracts fix neither.
- Sidebar.Tally: counts every tag from zero. In the program the counter is a plain object: a tag named after an `Object.prototype` member such as `constructor` starts from the inherited function and gets a text count, and `__proto__` is never recorded. The model assumes tag names that are not such members.
- Sidebar.TallySum: holds for tags that are not `Object.prototype` member names, for the reason given under `Sidebar.Tally`.
- Sidebar.CountsSumToTokens: holds for tags that are not `Object.prototype` member names, for the reason given under `Sidebar.Tally`.
- Sidebar.CommonTags: the top-ten contract assumes tags that are not `Object.prototype` member names. With such a tag the program shows a text count and sorts with `NaN` comparisons, which the model does not follow.
- Theme.ParseFlag: only the texts "true" and "false" are read. Any other JSON value stored under the sidebar key is not modelled.
- Theme.Dispatches: the `setTheme` guard is modelled as an own-key test. Inherited object properties such as `toString` would also pass the JavaScript test; they are not modelled.
- Theme.CommandKeepsGood: holds for theme names that are not `Object.prototype` members. The program's `setTheme` guard is a truthiness test on `state.themes[themeName]`, which `toString` or `constructor` also pass; the current theme then names no theme and `getCurrentTheme` fails.
- Theme.ReachableIsGood: holds for theme names that are not `Object.prototype` members, for the reason given under `Theme.CommandKeepsGood`.
- Theme colours beyond the primary trio, spacing, shadows and other constant tables. No decision depends on them.
- Api.Retry: the waits are the requested delays. The host's 32-bit conversion of a timer delay is modelled only for the logout timer (`TokenExpiry.HostDelay`).
- Session.LoadUser: the `LOAD_USER_SUCCESS` and `LOGIN_SUCCESS` dispatches are composed into one step. No render happens between them.
- The notification rendering component: progress bars over `Date.now` and floating point. No notification queue exists in the code.
- Presentation-only components (buttons, spinners, loading screens, the error boundary) and the search bar's global debounce timer.
- The routing shell, the older registration component, the notes context and the notes hook. They reference functions and exports that do not exist, and they are not part of this model.

## Findings

| source | as written | input that shows it | evidently intended | confidence | as-written member | corrected member |
|---|---|---|---|---|---|---|
| src/contexts/AuthContext.jsx:147-148 | the logout timer is armed with `exp*1000 - now` ms in one `setTimeout`; browsers convert the delay to a signed 32-bit integer (modulo 2^32), so any delay above 2^31-1 ms (about 24.8 days) fires early: at once when the delay modulo 2^32 is at least 2^31, otherwise after that remainder | a token with `exp` 30 days ahead: delay 2,592,000,000 ms wraps to a negative value and the user is logged out immediately; with `exp` 60 days ahead the delay 5,184,000,000 ms fires after 889,032,704 ms (about ten days) | log out when the token expires, however far ahead that is (arm for at most 2^31-1 ms and decide again on firing) | not executed | TokenExpiry.LongLivedTokenLogsOutEarly | TokenExpiry.LogoutTimeCapped |
| src/contexts/NotificationContext.js:263-297 | on mount the save effect writes `theme` (the initial `light`) before the system-preference effect checks `localStorage.getItem('theme')`, so the check always finds a theme and never applies the system colour scheme; the change listener stays inert for the same reason until a reset removes the key | a first visit (nothing saved) with a dark system colour scheme shows the light theme | apply the system scheme when no theme was saved before mounting | not executed | Theme.SystemPreferenceIgnoredOnMount | Theme.MountFollowsSystemPreference |

`TokenExpiry.OnTokenChange` models the effect as written, with the host's 32-bit delay; `TokenExpiry.TimerFiresAtExpiry` therefore holds only for tokens that expire within 2^31-1 ms. `TokenExpiry.LogoutTimeCapped` is the corrected timer, and `TokenExpiry.CappedTimerLogsOutAtExpiry` proves it logs out at expiry for every token.

`Theme.MountAsWritten` models the provider's mount as written and `Theme.MountIntended` the corrected one, in which the system-preference check reads storage as it was before mounting.

=== FILE: api.dfy ===
/**
 * The HTTP-facing helpers of the client's service layer (`src/services/api.js`):
 * query-string filtering, the bearer header on the shared HTTP client, and
 * the `apiUtils` error classifiers, pagination arithmetic and bounded
 * exponential-backoff retry.
 *
 * Transport is not modelled: a remote call is represented by what it settled
 * to, and a thrown error by the fields of it the helpers read.
 */
module Api {
  import opened Common

  // ---------------------------------------------------------------------------
  // Errors as the helpers see them

  /** `error.response`: the HTTP status and `response.data.error`, if any. */
  datatype Response = Response(status: int, dataError: Option<string>)

  /** A rejected request: an HTTP-client error object (`message`, `response`,
      whether a request went out), or a bare string that was thrown. */
  datatype ApiError =
    | ErrorObject(message: Option<string>, response: Option<Response>, request: bool)
    | ErrorString(text: string)
  {
    predicate HasResponse() { ErrorObject? && response.Some? }
    predicate HasRequest() { ErrorObject? && request }

    /** `error.response?.data?.error` */
    function ServerMessage(): Option<string> {
      if HasResponse() then response.value.dataError else None
    }
  }

  const NetworkMessage := "Network error. Please check your connection."
  const ResponseFallback := "An error occurred"
  const UnexpectedMessage := "An unexpected error occurred"

  /** `apiUtils.handleError` */
  function HandleError(e: ApiError): (msg: string)
    ensures e.HasResponse() ==> msg == OrElse(e.ServerMessage(), ResponseFallback)
    ensures !e.HasResponse() ==> msg == (if e.HasRequest() then NetworkMessage else UnexpectedMessage)
  {
    if e.HasResponse() then OrElse(e.response.value.dataError, ResponseFallback)
    else if e.HasRequest() then NetworkMessage
    else UnexpectedMessage
  }

  /** `apiUtils.parseErrorMessage`: a thrown string wins, then a truthy
      `message`, then the server's `data.error`, then the default. */
  function ParseErrorMessage(e: ApiError): (msg: string)
    ensures e.ErrorString? ==> msg == e.text
    ensures e.ErrorObject? && Truthy(e.message) ==> msg == e.message.value
    ensures e.ErrorObject? && !Truthy(e.message) ==> msg == OrElse(e.ServerMessage(), UnexpectedMessage)
  {
    match e
    case ErrorString(text) => text
    case ErrorObject(message, _, _) =>
      if Truthy(message) then message.value
      else if Truthy(e.ServerMessage()) then e.ServerMessage().value
      else UnexpectedMessage
  }

  /** `apiUtils.isNetworkError`: no response, but the request went out. */
  predicate IsNetworkError(e: ApiError) {
    !e.HasResponse() && e.HasRequest()
  }

  /** `apiUtils.isAuthError`: a response whose status is 401 or 403. */
  predicate IsAuthError(e: ApiError) {
    e.HasResponse() && e.response.value.status in {401, 403}
  }

  /** No error is both a network error and an authorization error. */
  lemma NetworkAndAuthDisjoint(e: ApiError)
    ensures !(IsNetworkError(e) && IsAuthError(e))
    ensures IsAuthError(e) ==> e.response.value.status == 401 || e.response.value.status == 403
  {
  }

  /** `handleError` names the network failure exactly for network errors
      (unless a server happens to send that very sentence as its message). */
  lemma HandleErrorNetworkIff(e: ApiError)
    requires e.ServerMessage() != Some(NetworkMessage)
    ensures HandleError(e) == NetworkMessage <==> IsNetworkError(e)
  {
  }

  /** The two message extractors agree on server-answered errors without a
      message of their own, and disagree on network errors: `handleError`
      names the network, `parseErrorMessage` falls back to the default. */
  lemma ParseAndHandleCompared(e: ApiError)
    ensures e.ErrorObject? && !Truthy(e.message) && Truthy(e.ServerMessage())
      ==> ParseErrorMessage(e) == HandleError(e)
    ensures e.ErrorObject? && !Truthy(e.message) && IsNetworkError(e)
      ==> ParseErrorMessage(e) == UnexpectedMessage && HandleError(e) == NetworkMessage
  {
  }

  // ---------------------------------------------------------------------------
  // Pagination

  datatype Pagination = Pagination(offset: int, limit: int)

  /** `apiUtils.formatPaginationParams(page = 1, limit = 20)`; a missing
      argument takes its default. */
  function FormatPaginationParams(page: Option<int>, limit: Option<int>): (p: Pagination)
    ensures p.limit == limit.GetOr(20)
    ensures p.limit > 0 ==> p.offset % p.limit == 0 && p.offset / p.limit + 1 == page.GetOr(1)
    ensures page.GetOr(1) == 1 ==> p.offset == 0
    ensures p.limit <= 0 ==> p.offset == (page.GetOr(1) - 1) * p.limit
  {
    var pg := page.GetOr(1);
    var lim := limit.GetOr(20);
    if lim > 0 then MultipleDivMod(pg - 1, lim); Pagination((pg - 1) * lim, lim)
    else Pagination((pg - 1) * lim, lim)
  }

  lemma MultipleDivMod(q: int, d: int)
    requires d > 0
    ensures (q * d) % d == 0 && (q * d) / d == q
  {
    var x := q * d;
    var q', r := x / d, x % d;
    assert x == d * q' + r && 0 <= r < d;
    assert d * (q - q') == r;
    var k := q - q';
    if k > 0 {
      MulAtLeast(d, k);
      assert false;
    } else if k < 0 {
      MulAtLeast(d, -k);
      assert false;
    }
  }

  lemma {:induction false} MulAtLeast(d: nat, k: nat)
    requires k >= 1
    ensures d * k >= d
  {
    if k > 1 {
      MulAtLeast(d, k - 1);
      assert d * k == d * (k - 1) + d;
    }
  }

  /** With no arguments, the first page of twenty. */
  lemma PaginationDefaults()
    ensures FormatPaginationParams(None, None) == Pagination(0, 20)
  {
  }

  // ---------------------------------------------------------------------------
  // Query parameters

  /** A parameter value as JavaScript holds it. */
  datatype ParamValue = Undefined | Null | Text(s: string) | Number(n: int) | Flag(b: bool)

  /** The query builders keep a parameter unless it is `undefined`, `null`
      or `''` (strict comparisons, so `0` and `false` are kept). */
  predicate Kept(v: ParamValue) {
    !(v.Undefined? || v.Null? || v == Text(""))
  }

  /** The parameters appended to the query string, in key order, by
      `getNotes`, `searchNotes`, `getSharedNotes` and `getReceivedShares`. */
  function QueryParams(params: seq<(string, ParamValue)>): (r: seq<(string, ParamValue)>)
    ensures |r| <= |params|
    ensures forall i :: 0 <= i < |r| ==> Kept(r[i].1) && r[i] in params
    ensures forall i :: 0 <= i < |params| && Kept(params[i].1) ==> params[i] in r
  {
    if params == [] then []
    else if Kept(params[0].1) then [params[0]] + QueryParams(params[1..])
    else QueryParams(params[1..])
  }

  /** Filtering respects concatenation: the kept parameters keep their
      relative order. */
  lemma {:induction false} QueryParamsAppend(a: seq<(string, ParamValue)>, b: seq<(string, ParamValue)>)
    ensures QueryParams(a + b) == QueryParams(a) + QueryParams(b)
  {
    if a != [] {
      assert (a + b)[0] == a[0];
      assert (a + b)[1..] == a[1..] + b;
      QueryParamsAppend(a[1..], b);
      if Kept(a[0].1) {
        assert [a[0]] + (QueryParams(a[1..]) + QueryParams(b))
          == ([a[0]] + QueryParams(a[1..])) + QueryParams(b);
      }
    } else {
      assert a + b == b;
    }
  }

  /** Filtering an already filtered list changes nothing. */
  lemma {:induction false} QueryParamsIdempotent(params: seq<(string, ParamValue)>)
    ensures QueryParams(QueryParams(params)) == QueryParams(params)
  {
    if params != [] {
      QueryParamsIdempotent(params[1..]);
    }
  }

  // ---------------------------------------------------------------------------
  // The bearer header

  type Headers = map<string, string>

  const Authorization := "Authorization"
  const BearerPrefix := "Bearer "

  /** `authService.setAuthToken`: a truthy token sets the header to
      `Bearer <token>`, anything else removes it. */
  function SetAuthToken(h: Headers, token: Option<string>): (r: Headers)
    ensures Authorization in r <==> Truthy(token)
    ensures Truthy(token) ==> r[Authorization] == BearerPrefix + token.value
    ensures forall k :: k != Authorization ==> (k in r <==> k in h) && (k in h ==> r[k] == h[k])
  {
    if Truthy(token) then h[Authorization := BearerPrefix + token.value]
    else h - {Authorization}
  }

  /** `authService.removeAuthToken` */
  function RemoveAuthToken(h: Headers): (r: Headers)
    ensures Authorization !in r
    ensures forall k :: k != Authorization ==> (k in r <==> k in h) && (k in h ==> r[k] == h[k])
  {
    h - {Authorization}
  }

  /** The token a server would read off the header. */
  function BearerToken(h: Headers): Option<string> {
    if Authorization in h && StartsWith(h[Authorization], BearerPrefix)
    then Some(h[Authorization][|BearerPrefix|..])
    else None
  }

  /** Setting a token then reading the header gives the token back; a falsy
      token and `removeAuthToken` both leave no token to read. */
  lemma BearerRoundTrip(h: Headers, token: Option<string>)
    ensures Truthy(token) ==> BearerToken(SetAuthToken(h, token)) == token
    ensures !Truthy(token) ==> SetAuthToken(h, token) == RemoveAuthToken(h)
    ensures BearerToken(RemoveAuthToken(h)) == None
  {
    if Truthy(token) {
      var v := BearerPrefix + token.value;
      assert v[..|BearerPrefix|] == BearerPrefix;
      assert v[|BearerPrefix|..] == token.value;
    }
  }

  // ---------------------------------------------------------------------------
  // retry

  /** What the i-th call of the retried function settled to. */
  datatype Attempt<T> = Resolved(value: T) | Rejected(error: ApiError)

  /** How `apiUtils.retry` settles: with a value, by rethrowing, or (when the
      loop never runs) with `undefined`. */
  datatype RetryOutcome<T> = Returned(value: T) | Threw(error: ApiError) | ReturnedUndefined

  function Pow2(i: nat): (p: nat)
    ensures p >= 1
  {
    if i == 0 then 1 else 2 * Pow2(i - 1)
  }

  /** Reference definition of `retry` from attempt `i` on: the outcome, the
      number of calls made and the waits slept, in order. */
  function RetryFrom<T>(fn: nat -> Attempt<T>, retries: int, delay: int, i: nat)
    : (RetryOutcome<T>, nat, seq<int>)
    decreases if retries > i then retries - i else 0
  {
    if i >= retries then (ReturnedUndefined, 0, [])
    else match fn(i)
      case Resolved(v) => (Returned(v), 1, [])
      case Rejected(e) =>
        if i == retries - 1 || !IsNetworkError(e) then (Threw(e), 1, [])
        else
          var rest := RetryFrom(fn, retries, delay, i + 1);
          (rest.0, rest.1 + 1, [delay * Pow2(i)] + rest.2)
  }

  /** Every call before index `n` was rejected with a network error. */
  predicate NetworkFailuresBefore<T>(fn: nat -> Attempt<T>, n: nat) {
    forall j: nat :: j < n ==> fn(j).Rejected? && IsNetworkError(fn(j).error)
  }

  /** `retry`'s default arguments: three attempts, one second apart at first. */
  const DefaultRetries := 3
  const DefaultRetryDelay := 1000

  /** With the defaults, `retry` makes at most three calls and sleeps at most
      twice, one and then two seconds. */
  lemma RetryDefaults<T>(fn: nat -> Attempt<T>)
    ensures var r := RetryFrom(fn, DefaultRetries, DefaultRetryDelay, 0);
      && 1 <= r.1 <= 3
      && r.2 == [1000, 2000][..r.1 - 1]
  {
    var r2 := RetryFrom(fn, DefaultRetries, DefaultRetryDelay, 2);
    assert r2.1 == 1 && r2.2 == [];
    var r1 := RetryFrom(fn, DefaultRetries, DefaultRetryDelay, 1);
    assert 1 <= r1.1 <= 2 && r1.2 == [2000][..r1.1 - 1];
  }

  /** `apiUtils.retry(fn, retries, delay)`: calls `fn` at most `retries`
      times, returns the first success, rethrows a non-network error at once
      and the last error on the final attempt, and waits `delay * 2^i` after
      failed attempt `i`. */
  method Retry<T>(fn: nat -> Attempt<T>, retries: int, delay: int)
    returns (outcome: RetryOutcome<T>, calls: nat, waits: seq<int>)
    ensures (outcome, calls, waits) == RetryFrom(fn, retries, delay, 0)
    ensures retries <= 0 <==> calls == 0
    ensures retries <= 0 ==> outcome == ReturnedUndefined
    ensures retries > 0 ==> 1 <= calls <= retries && !outcome.ReturnedUndefined?
    ensures NetworkFailuresBefore(fn, if calls == 0 then 0 else calls - 1)
    ensures calls > 0 && outcome.Returned? ==> fn(calls - 1) == Resolved(outcome.value)
    ensures calls > 0 && outcome.Threw? ==> fn(calls - 1) == Rejected(outcome.error)
    ensures outcome.Threw? && calls < retries ==> !IsNetworkError(outcome.error)
    ensures |waits| == (if calls == 0 then 0 else calls - 1)
    ensures forall j :: 0 <= j < |waits| ==> waits[j] == delay * Pow2(j)
  {
    var i: nat := 0;
    waits := [];
    assert RetryFrom(fn, retries, delay, 0).2 == waits + RetryFrom(fn, retries, delay, 0).2;
    while i < retries
      invariant i == 0 || i < retries
      invariant NetworkFailuresBefore(fn, i)
      invariant |waits| == i
      invariant forall j :: 0 <= j < i ==> waits[j] == delay * Pow2(j)
      invariant RetryFrom(fn, retries, delay, 0).0 == RetryFrom(fn, retries, delay, i).0
      invariant RetryFrom(fn, retries, delay, 0).1 == RetryFrom(fn, retries, delay, i).1 + i
      invariant RetryFrom(fn, retries, delay, 0).2 == waits + RetryFrom(fn, retries, delay, i).2
      decreases retries - i
    {
      match fn(i)
      case Resolved(v) =>
        assert waits + [] == waits;
        return Returned(v), i + 1, waits;
      case Rejected(e) =>
        if i == retries - 1 || !IsNetworkError(e) {
          assert waits + [] == waits;
          return Threw(e), i + 1, waits;
        }
        var w := delay * Pow2(i);
        assert waits + ([w] + RetryFrom(fn, retries, delay, i + 1).2)
          == (waits + [w]) + RetryFrom(fn, retries, delay, i + 1).2;
        waits := waits + [w];
        i := i + 1;
    }
    return ReturnedUndefined, 0, [];
  }
}

=== FILE: auth_reducer.dfy ===
/**
 * The authentication store's reducer (`authReducer` in
 * `src/contexts/AuthContext.jsx`): a total function from a state of five
 * fields and an action to the next state.
 *
 * The invariant the store keeps is that a present token implies an
 * authenticated session. The converse does not hold: `LOAD_USER_SUCCESS`
 * authenticates without setting a token.
 */
module AuthReducer {
  import opened Common

  /** A user profile: the JSON object's fields, by name. */
  type User = map<string, string>

  datatype AuthState = AuthState(
    user: Option<User>,
    token: Option<string>,
    isAuthenticated: bool,
    isLoading: bool,
    error: Option<string>)

  /** The store's state before anything has been dispatched. */
  const Initial := AuthState(None, None, false, true, None)

  datatype AuthAction =
    | LoginStart
    | RegisterStart
    | LoadUserStart
    | LoginSuccess(sessionUser: Option<User>, sessionToken: string)
    | RegisterSuccess(sessionUser: Option<User>, sessionToken: string)
    | LoginFailure(message: string)
    | RegisterFailure(message: string)
    | LoadUserFailure(message: string)
    | Logout
    | LoadUserSuccess(loadedUser: Option<User>)
    | UpdateUser(changes: Option<User>)
    | ClearError
    | SetLoading(loading: bool)
    | Unrecognized(name: string)

  /** The invariant: a token is only ever held by an authenticated session. */
  predicate TokenImpliesAuthenticated(s: AuthState) {
    s.token.Some? ==> s.isAuthenticated
  }

  /** `{ ...base, ...changes }` on two user objects: the right-hand side wins. */
  function Merge(base: User, changes: User): (m: User)
    ensures m.Keys == base.Keys + changes.Keys
    ensures forall k :: k in changes ==> m[k] == changes[k]
    ensures forall k :: k in base && k !in changes ==> m[k] == base[k]
  {
    base + changes
  }

  function Reduce(s: AuthState, a: AuthAction): (r: AuthState)
    ensures TokenImpliesAuthenticated(s) ==> TokenImpliesAuthenticated(r)
    ensures r.token.Some? && r.token != s.token ==> r.isAuthenticated
  {
    match a
    case LoginStart | RegisterStart | LoadUserStart =>
      s.(isLoading := true, error := None)
    case LoginSuccess(_, _) | RegisterSuccess(_, _) =>
      s.(user := a.sessionUser, token := Some(a.sessionToken), isAuthenticated := true, isLoading := false, error := None)
    case LoginFailure(_) | RegisterFailure(_) | LoadUserFailure(_) =>
      s.(user := None, token := None, isAuthenticated := false, isLoading := false, error := Some(a.message))
    case Logout =>
      s.(user := None, token := None, isAuthenticated := false, isLoading := false, error := None)
    case LoadUserSuccess(u) =>
      s.(user := u, isAuthenticated := true, isLoading := false, error := None)
    case UpdateUser(changes) =>
      // spreading `null`/`undefined` contributes no fields
      s.(user := Some(Merge(s.user.GetOr(map[]), changes.GetOr(map[]))), error := None)
    case ClearError =>
      s.(error := None)
    case SetLoading(b) =>
      s.(isLoading := b)
    case Unrecognized(_) =>
      s
  }

  /** Dispatching a sequence of actions in order. */
  function Run(s: AuthState, actions: seq<AuthAction>): AuthState
    decreases |actions|
  {
    if actions == [] then s else Run(Reduce(s, actions[0]), actions[1..])
  }

  /** Every state the store can reach from its initial state holds a token
      only while authenticated. */
  lemma {:induction false} RunKeepsInvariant(s: AuthState, actions: seq<AuthAction>)
    requires TokenImpliesAuthenticated(s)
    ensures TokenImpliesAuthenticated(Run(s, actions))
    decreases |actions|
  {
    if actions != [] {
      RunKeepsInvariant(Reduce(s, actions[0]), actions[1..]);
    }
  }

  lemma ReachableKeepsInvariant(actions: seq<AuthAction>)
    ensures TokenImpliesAuthenticated(Run(Initial, actions))
  {
    RunKeepsInvariant(Initial, actions);
  }

  /** A successful login or registration installs the payload's user and
      token as an authenticated, settled, error-free session. */
  lemma SuccessInstallsSession(s: AuthState, a: AuthAction)
    requires a.LoginSuccess? || a.RegisterSuccess?
    ensures var r := Reduce(s, a);
      && r.user == a.sessionUser && r.token == Some(a.sessionToken)
      && r.isAuthenticated && !r.isLoading && r.error == None
  {
  }

  /** A failed login or registration drops the session and records the
      message. */
  lemma FailureDropsSession(s: AuthState, a: AuthAction)
    requires a.LoginFailure? || a.RegisterFailure?
    ensures var r := Reduce(s, a);
      && r.user == None && r.token == None
      && !r.isAuthenticated && !r.isLoading && r.error == Some(a.message)
  {
  }

  /** A failed user load drops the session the same way. */
  lemma LoadUserFailureDropsSession(s: AuthState, message: string)
    ensures var r := Reduce(s, LoadUserFailure(message));
      && r.user == None && r.token == None
      && !r.isAuthenticated && !r.isLoading && r.error == Some(message)
  {
  }

  /** Logging out drops the session and clears the error. */
  lemma LogoutDropsSession(s: AuthState)
    ensures Reduce(s, Logout) == AuthState(None, None, false, false, None)
  {
  }

  /** Starting a login or registration raises the loading flag and clears
      the error, and keeps the session as it was. */
  lemma StartKeepsSession(s: AuthState, a: AuthAction)
    requires a.LoginStart? || a.RegisterStart?
    ensures var r := Reduce(s, a);
      && r.isLoading && r.error == None
      && r.user == s.user && r.token == s.token && r.isAuthenticated == s.isAuthenticated
  {
  }

  /** Starting a user load raises the loading flag and clears the error, and
      keeps the session as it was. */
  lemma LoadUserStartKeepsSession(s: AuthState)
    ensures var r := Reduce(s, LoadUserStart);
      && r.isLoading && r.error == None
      && r.user == s.user && r.token == s.token && r.isAuthenticated == s.isAuthenticated
  {
  }

  /** `CLEAR_ERROR` changes only the error, `SET_LOADING` only the loading
      flag, and an unrecognised action nothing. */
  lemma SingleFieldActions(s: AuthState, b: bool, name: string)
    ensures Reduce(s, ClearError) == s.(error := None)
    ensures Reduce(s, SetLoading(b)) == s.(isLoading := b)
    ensures Reduce(s, Unrecognized(name)) == s
  {
  }

  /** `UPDATE_USER` merges the changes into the user (the changes win on
      shared fields) and leaves the token and the authentication flag alone. */
  lemma UpdateUserMerges(s: AuthState, changes: User)
    ensures var r := Reduce(s, UpdateUser(Some(changes)));
      && r.user.Some?
      && r.user.value.Keys == s.user.GetOr(map[]).Keys + changes.Keys
      && (forall k :: k in changes ==> r.user.value[k] == changes[k])
      && (forall k :: s.user.Some? && k in s.user.value && k !in changes ==> r.user.value[k] == s.user.value[k])
      && r.token == s.token && r.isAuthenticated == s.isAuthenticated && r.isLoading == s.isLoading
      && r.error == None
  {
  }

  /** Authentication without a token is reachable: loading a user sets the
      user and the flag but not the token. */
  lemma AuthenticatedWithoutToken()
    ensures var r := Reduce(Initial, LoadUserSuccess(Some(map["name" := "Ada"])));
      r.isAuthenticated && r.token == None && r.user.Some?
  {
  }
}

=== FILE: common.dfy ===
/**
 * Shared vocabulary for the model: optional values, JavaScript truthiness of
 * optional strings, and the small string operations the client leans on
 * (`trim`, `split`, `startsWith`, `toUpperCase`, decimal rendering).
 *
 * Strings are ASCII-only `seq<char>`; whitespace is the ASCII part of the set
 * JavaScript's `trim` and the regular-expression class `\s` use.
 */
module Common {

  datatype Option<+T> = None | Some(value: T) {
    function GetOr(default: T): T {
      match this
      case Some(v) => v
      case None => default
    }
  }

  /** A JavaScript value that may be `undefined`/`null` or a string is truthy
      exactly when it is a non-empty string. */
  predicate Truthy(o: Option<string>) {
    o.Some? && o.value != ""
  }

  /** `o || fallback` for an optional string. */
  function OrElse(o: Option<string>, fallback: string): (r: string)
    ensures Truthy(o) ==> r == o.value
    ensures !Truthy(o) ==> r == fallback
  {
    if Truthy(o) then o.value else fallback
  }

  // ---------------------------------------------------------------------------
  // Characters

  predicate IsSpace(c: char) {
    c == ' ' || c == '\t' || c == '\n' || c == '\r' || c == '\U{B}' || c == '\U{C}'
  }

  predicate IsUpper(c: char) { 'A' <= c <= 'Z' }
  predicate IsLower(c: char) { 'a' <= c <= 'z' }
  predicate IsDigit(c: char) { '0' <= c <= '9' }

  function UpperChar(c: char): (r: char)
    ensures IsLower(c) ==> IsUpper(r) && r as int == c as int - 32
    ensures !IsLower(c) ==> r == c
  {
    if IsLower(c) then (c as int - 32) as char else c
  }

  /** ASCII `toUpperCase`. */
  function Upper(s: string): (r: string)
    ensures |r| == |s|
    ensures forall i :: 0 <= i < |s| ==> r[i] == UpperChar(s[i])
  {
    if s == [] then [] else [UpperChar(s[0])] + Upper(s[1..])
  }

  predicate AllSpace(s: string) {
    forall k :: 0 <= k < |s| ==> IsSpace(s[k])
  }

  predicate IsPrefix(p: string, s: string) {
    |p| <= |s| && s[..|p|] == p
  }

  /** `s.startsWith(p)`. */
  function StartsWith(s: string, p: string): (r: bool)
    ensures r <==> IsPrefix(p, s)
  {
    |p| <= |s| && s[..|p|] == p
  }

  // ---------------------------------------------------------------------------
  // trim

  /** Number of leading whitespace characters. */
  function LeadLen(s: string): (n: nat)
    ensures n <= |s|
    ensures forall k :: 0 <= k < n ==> IsSpace(s[k])
    ensures n < |s| ==> !IsSpace(s[n])
  {
    if s == [] || !IsSpace(s[0]) then 0 else 1 + LeadLen(s[1..])
  }

  /** Number of trailing whitespace characters. */
  function TrailLen(s: string): (n: nat)
    ensures n <= |s|
    ensures forall k :: |s| - n <= k < |s| ==> IsSpace(s[k])
    ensures n < |s| ==> !IsSpace(s[|s| - 1 - n])
  {
    if s == [] || !IsSpace(s[|s| - 1]) then 0 else 1 + TrailLen(s[..|s| - 1])
  }

  /** `s.trim()`: the slice of `s` left after dropping leading and trailing
      whitespace; empty exactly when `s` is blank. */
  function Trim(s: string): (r: string)
    ensures |r| <= |s| - LeadLen(s)
    ensures r == s[LeadLen(s)..LeadLen(s) + |r|]
    ensures r == [] <==> AllSpace(s)
    ensures r == [] || (!IsSpace(r[0]) && !IsSpace(r[|r| - 1]))
  {
    var i := LeadLen(s);
    if i == |s| then []
    else
      var j := |s| - TrailLen(s);
      s[i..j]
  }

  /** Trimming twice trims nothing more. */
  lemma TrimIdempotent(s: string)
    ensures Trim(Trim(s)) == Trim(s)
  {
    var r := Trim(s);
    if r != [] {
      assert LeadLen(r) == 0;
      assert TrailLen(r) == 0;
      assert r[0..|r|] == r;
    }
  }

  // ---------------------------------------------------------------------------
  // split / join

  function Count(c: char, s: string): (n: nat)
    ensures n <= |s|
  {
    if s == [] then 0 else (if s[0] == c then 1 else 0) + Count(c, s[1..])
  }

  /** `s.split(sep)` for a one-character separator: the pieces between
      separators, always at least one (the empty string splits into `[""]`). */
  function Split(s: string, sep: char): (parts: seq<string>)
    ensures |parts| >= 1
    ensures forall i :: 0 <= i < |parts| ==> sep !in parts[i]
  {
    if s == [] then [""]
    else
      var rest := Split(s[1..], sep);
      if s[0] == sep then [""] + rest
      else [[s[0]] + rest[0]] + rest[1..]
  }

  function Join(parts: seq<string>, sep: char): string
    requires |parts| >= 1
  {
    if |parts| == 1 then parts[0] else parts[0] + [sep] + Join(parts[1..], sep)
  }

  /** Splitting then joining with the same separator gives the input back. */
  lemma {:induction false} SplitJoin(s: string, sep: char)
    ensures Join(Split(s, sep), sep) == s
  {
    if s != [] {
      var rest := Split(s[1..], sep);
      SplitJoin(s[1..], sep);
      if s[0] == sep {
        assert Split(s, sep)[1..] == rest;
      } else {
        var parts := Split(s, sep);
        if |rest| == 1 {
          assert parts == [[s[0]] + rest[0]];
        } else {
          assert parts[1..] == rest[1..];
          assert Join(rest, sep) == rest[0] + [sep] + Join(rest[1..], sep);
        }
      }
    }
  }

  /** There is one more piece than there are separators. */
  lemma {:induction false} SplitLength(s: string, sep: char)
    ensures |Split(s, sep)| == Count(sep, s) + 1
  {
    if s != [] {
      SplitLength(s[1..], sep);
    }
  }

  /** Text without the separator is one piece. */
  lemma {:induction false} SplitWithout(s: string, sep: char)
    requires sep !in s
    ensures Split(s, sep) == [s]
  {
    if s != [] {
      assert sep !in s[1..] by {
        assert forall k :: 0 <= k < |s[1..]| ==> s[1..][k] == s[k + 1];
      }
      SplitWithout(s[1..], sep);
      assert [s[0]] + s[1..] == s;
    }
  }

  /** Splitting at a separator splits each side separately. */
  lemma {:induction false} SplitConcat(a: string, b: string, sep: char)
    ensures Split(a + [sep] + b, sep) == Split(a, sep) + Split(b, sep)
  {
    if a == [] {
      assert a + [sep] + b == [sep] + b;
    } else {
      assert (a + [sep] + b)[1..] == a[1..] + [sep] + b;
      SplitConcat(a[1..], b, sep);
    }
  }

  /** The first piece is the part of `s` before the first separator. */
  lemma {:induction false} SplitFirst(s: string, sep: char)
    ensures IsPrefix(Split(s, sep)[0], s)
    ensures |Split(s, sep)[0]| < |s| ==> s[|Split(s, sep)[0]|] == sep
  {
    if s != [] && s[0] != sep {
      SplitFirst(s[1..], sep);
    }
  }

  // ---------------------------------------------------------------------------
  // Decimal rendering of naturals (what `${n}` produces for a non-negative integer)

  function DigitChar(d: nat): (c: char)
    requires d < 10
    ensures IsDigit(c)
  {
    ('0' as int + d) as char
  }

  function Decimal(n: nat): (s: string)
    ensures |s| >= 1
    ensures forall i :: 0 <= i < |s| ==> IsDigit(s[i])
    ensures n < 10 <==> |s| == 1
  {
    if n < 10 then [DigitChar(n)] else Decimal(n / 10) + [DigitChar(n % 10)]
  }

  function ParseDecimal(s: string): nat
    requires forall i :: 0 <= i < |s| ==> IsDigit(s[i])
  {
    if s == [] then 0
    else
      assert IsDigit(s[|s| - 1]);
      ParseDecimal(s[..|s| - 1]) * 10 + (s[|s| - 1] as int - '0' as int)
  }

  /** Reading back a rendered number gives the number. */
  lemma {:induction false} DecimalRoundTrip(n: nat)
    ensures ParseDecimal(Decimal(n)) == n
  {
    if n >= 10 {
      DecimalRoundTrip(n / 10);
      var s := Decimal(n);
      assert s[..|s| - 1] == Decimal(n / 10);
    }
  }
}

=== FILE: dashboard.dfy ===
/**
 * The dashboard page's helpers (`src/pages/DashboardPage.js`): relative
 * date labels, the status icon and tone of a note card, the tag count shown
 * on a card, and the first name in the greeting.
 *
 * Times are integer milliseconds since the epoch. For a positive divisor,
 * Dafny's integer division rounds toward negative infinity, exactly as
 * `Math.floor` of the quotient does.
 */
module Dashboard {
  import opened Common
  import Sidebar

  // ---------------------------------------------------------------------------
  // Relative dates

  const HourMs := 1000 * 60 * 60

  /** The label `formatDate` produces; `LocaleDate` stands for the host's
      `toLocaleDateString()` of the date (absent for an unparsable date,
      whose hour difference is `NaN` and fails every comparison). */
  datatype DateLabel = JustNow | HoursAgo(hours: int) | Yesterday | LocaleDate(date: Option<int>)

  /** `Math.floor((now - date) / 3600000)` */
  function HoursBetween(date: int, now: int): (h: int)
    ensures h * HourMs <= now - date < (h + 1) * HourMs
  {
    (now - date) / HourMs
  }

  /** `formatDate(dateString)` at time `now`; `date` is the parsed date, or
      `None` when the text does not parse. */
  function FormatDate(date: Option<int>, now: int): (l: DateLabel)
    ensures date.None? ==> l == LocaleDate(None)
    ensures date.Some? ==> (l == JustNow <==> now - date.value < HourMs)
    ensures date.Some? ==> (l.HoursAgo? <==> HourMs <= now - date.value < 24 * HourMs)
    ensures l.HoursAgo? ==> 1 <= l.hours < 24 && l.hours == HoursBetween(date.value, now)
    ensures date.Some? ==> (l == Yesterday <==> 24 * HourMs <= now - date.value < 48 * HourMs)
    ensures date.Some? ==> (l.LocaleDate? <==> now - date.value >= 48 * HourMs)
  {
    match date
    case None => LocaleDate(None)
    case Some(d) =>
      var h := HoursBetween(d, now);
      if h < 1 then JustNow
      else if h < 24 then HoursAgo(h)
      else if h < 48 then Yesterday
      else LocaleDate(Some(d))
  }

  /** The label's text, for every label but the host-formatted date. */
  function LabelText(l: DateLabel): (t: Option<string>)
    requires !l.LocaleDate?
    requires l.HoursAgo? ==> l.hours >= 0
  {
    match l
    case JustNow => Some("Just now")
    case HoursAgo(h) => Some(Decimal(h) + "h ago")
    case Yesterday => Some("Yesterday")
  }

  /** "<h>h ago" reads back as the hour count. */
  lemma HoursAgoReadsBack(date: int, now: int)
    requires FormatDate(Some(date), now).HoursAgo?
    ensures var l := FormatDate(Some(date), now);
      var t := LabelText(l).value;
      && |t| >= 6 && t[|t| - 5..] == "h ago"
      && (forall i :: 0 <= i < |t| - 5 ==> IsDigit(t[i]))
      && ParseDecimal(t[..|t| - 5]) == l.hours
  {
    var l := FormatDate(Some(date), now);
    var t := LabelText(l).value;
    assert t[..|t| - 5] == Decimal(l.hours);
    DecimalRoundTrip(l.hours);
  }

  /** How old a label says the date is. */
  function Age(l: DateLabel): nat {
    match l
    case JustNow => 0
    case HoursAgo(_) => 1
    case Yesterday => 2
    case LocaleDate(_) => 3
  }

  /** As time passes a date's label only gets older, and within the
      "hours ago" bucket the hour count never goes down. */
  lemma LabelsAge(date: int, now1: int, now2: int)
    requires now1 <= now2
    ensures Age(FormatDate(Some(date), now1)) <= Age(FormatDate(Some(date), now2))
    ensures FormatDate(Some(date), now1).HoursAgo? && FormatDate(Some(date), now2).HoursAgo? ==>
      FormatDate(Some(date), now1).hours <= FormatDate(Some(date), now2).hours
  {
  }

  /** A date in the future is shown as "Just now". */
  lemma FutureIsJustNow(date: int, now: int)
    requires date > now
    ensures FormatDate(Some(date), now) == JustNow
  {
  }

  // ---------------------------------------------------------------------------
  // Note status

  datatype Icon = Eye | Share | Document

  /** The theme colour a card's icon box uses, for its text and (with an
      alpha suffix) its background. */
  datatype Tone = Success | Info | Secondary

  /** `getNoteIcon(status)` */
  function IconFor(status: string): (i: Icon)
    ensures i == Eye <==> status == "public"
    ensures i == Share <==> status == "shared"
  {
    if status == "public" then Eye else if status == "shared" then Share else Document
  }

  /** The `NoteIcon` box's colour switch. */
  function ToneFor(status: string): (t: Tone)
    ensures t == Success <==> status == "public"
    ensures t == Info <==> status == "shared"
  {
    if status == "public" then Success else if status == "shared" then Info else Secondary
  }

  /** The icon and the colour follow the same three-way split: each
      determines the other. */
  lemma IconAndToneAgree(s1: string, s2: string)
    ensures IconFor(s1) == IconFor(s2) <==> ToneFor(s1) == ToneFor(s2)
    ensures IconFor(s1) == Document <==> ToneFor(s1) == Secondary
  {
  }

  // ---------------------------------------------------------------------------
  // Card tag count and greeting

  /** `note.tags.split(',').length`, shown only when the note has tags. */
  function CardTagCount(tags: Option<string>): (n: Option<nat>)
    ensures n.Some? <==> Truthy(tags)
    ensures n.Some? ==> n.value == Count(',', tags.value) + 1
  {
    if !Truthy(tags) then None
    else
      SplitLength(tags.value, ',');
      Some(|Split(tags.value, ',')|)
  }

  /** The card counts every piece, blank ones included, so it never shows
      fewer tags than the sidebar counts for the note, and it can show more. */
  lemma CardCountsAtLeastSidebar(tags: Option<string>)
    requires Truthy(tags)
    ensures CardTagCount(tags).value >= |Sidebar.NoteTokens(tags)|
    ensures CardTagCount(Some(",")).value == 2 && Sidebar.NoteTokens(Some(",")) == []
  {
    assert Split(",", ',') == ["", ""];
  }

  /** `user?.name?.split(' ')[0]`: the name up to its first space (nothing
      when there is no name). */
  function FirstName(name: Option<string>): (r: string)
    ensures name.None? ==> r == ""
    ensures name.Some? ==> IsPrefix(r, name.value) && ' ' !in r
    ensures name.Some? && |r| < |name.value| ==> name.value[|r|] == ' '
  {
    match name
    case None => ""
    case Some(s) =>
      SplitFirst(s, ' ');
      Split(s, ' ')[0]
  }

  /** The greeting's name is the longest space-free prefix of the name:
      any other space-free prefix is a prefix of it. */
  lemma FirstNameIsLongest(name: string, p: string)
    requires IsPrefix(p, name) && ' ' !in p
    ensures |p| <= |FirstName(Some(name))|
  {
    assert forall k :: 0 <= k < |p| ==> p[k] == name[k] && p[k] in p;
  }
}

=== FILE: form_validation.dfy ===
/**
 * The generic form-validation hook `useFormValidation` of
 * `src/components/UI/Form.js`: field values, per-field error messages and
 * the set of touched fields, driven by per-field rule lists.
 *
 * Each handler is one atomic transition on the state before the call; the
 * rules see the values as they were before the change, as the hook's
 * closures do.
 */
module FormValidation {
  import opened Common

  type Values = map<string, string>

  /** A rule: the field's value (absent when the field has none yet) and all
      values to an error message, or `''` when the rule passes. */
  type Rule = (Option<string>, Values) -> string

  type Rules = map<string, seq<Rule>>

  datatype FormState = FormState(values: Values, errors: map<string, string>, touched: set<string>)

  function Init(initial: Values): (st: FormState)
    ensures st.values == initial && st.errors == map[] && st.touched == {}
  {
    FormState(initial, map[], {})
  }

  function Lookup(values: Values, name: string): (v: Option<string>)
    ensures v.Some? <==> name in values
    ensures v.Some? ==> v.value == values[name]
  {
    if name in values then Some(values[name]) else None
  }

  /** The first non-empty message of `rules`, in order, or `''`. */
  function FirstFailure(rules: seq<Rule>, value: Option<string>, values: Values): (msg: string)
    ensures msg == "" <==> forall i :: 0 <= i < |rules| ==> rules[i](value, values) == ""
    ensures msg != "" ==> exists i :: 0 <= i < |rules| && rules[i](value, values) == msg &&
                                      forall j :: 0 <= j < i ==> rules[j](value, values) == ""
  {
    if rules == [] then ""
    else
      var m := rules[0](value, values);
      if m != "" then m
      else
        var rest := FirstFailure(rules[1..], value, values);
        assert forall i :: 1 <= i < |rules| ==> rules[i] == rules[1..][i - 1];
        rest
  }

  /** `validateField(name, value)`: `''` for a field without rules, else the
      first failing rule's message. */
  function ValidateField(rules: Rules, name: string, value: Option<string>, values: Values): (msg: string)
    ensures name !in rules ==> msg == ""
    ensures name in rules ==>
      (msg == "" <==> forall i :: 0 <= i < |rules[name]| ==> rules[name][i](value, values) == "")
    ensures name in rules && msg != "" ==>
      exists i :: 0 <= i < |rules[name]| && rules[name][i](value, values) == msg &&
                  forall j :: 0 <= j < i ==> rules[name][j](value, values) == ""
  {
    if name !in rules then "" else FirstFailure(rules[name], value, values)
  }

  /** `handleChange(name, value)`: the value is always stored; the field's
      error is recomputed only when the field is touched. */
  function HandleChange(rules: Rules, st: FormState, name: string, value: string): (r: FormState)
    ensures r.values.Keys == st.values.Keys + {name} && r.values[name] == value
    ensures forall n :: n in st.values && n != name ==> r.values[n] == st.values[n]
    ensures r.touched == st.touched
    ensures name in st.touched ==> name in r.errors && r.errors[name] == ValidateField(rules, name, Some(value), st.values)
    ensures forall n :: n != name || name !in st.touched ==>
      (n in r.errors <==> n in st.errors) && (n in st.errors ==> r.errors[n] == st.errors[n])
  {
    var errors := if name in st.touched then st.errors[name := ValidateField(rules, name, Some(value), st.values)] else st.errors;
    FormState(st.values[name := value], errors, st.touched)
  }

  /** `handleBlur(name)`: the field becomes touched and its error is set
      (possibly to `''`) from its current value. */
  function HandleBlur(rules: Rules, st: FormState, name: string): (r: FormState)
    ensures r.values == st.values
    ensures r.touched == st.touched + {name}
    ensures name in r.errors && r.errors[name] == ValidateField(rules, name, Lookup(st.values, name), st.values)
    ensures forall n :: n != name ==> (n in r.errors <==> n in st.errors) && (n in st.errors ==> r.errors[n] == st.errors[n])
  {
    FormState(st.values, st.errors[name := ValidateField(rules, name, Lookup(st.values, name), st.values)], st.touched + {name})
  }

  /** Whether field `name` fails its rules on the current values. */
  predicate Fails(rules: Rules, values: Values, name: string) {
    ValidateField(rules, name, Lookup(values, name), values) != ""
  }

  /** `validateAll()`: the error map becomes exactly the failing fields'
      messages, every rule-bearing field becomes touched (replacing the old
      set), and the result says whether no field failed. */
  function ValidateAll(rules: Rules, st: FormState): (r: (FormState, bool))
    ensures r.0.values == st.values
    ensures r.0.touched == rules.Keys
    ensures forall n :: n in r.0.errors <==> n in rules && Fails(rules, st.values, n)
    ensures forall n :: n in r.0.errors ==> r.0.errors[n] == ValidateField(rules, n, Lookup(st.values, n), st.values) != ""
    ensures r.1 <==> forall n :: n in rules ==> !Fails(rules, st.values, n)
  {
    var errors := map n | n in rules && Fails(rules, st.values, n) :: ValidateField(rules, n, Lookup(st.values, n), st.values);
    (FormState(st.values, errors, rules.Keys), errors == map[])
  }

  /** `reset()` */
  function Reset(initial: Values, st: FormState): (r: FormState)
    ensures r == Init(initial)
  {
    FormState(initial, map[], {})
  }

  /** `isValid`: the error map has no keys, whatever their messages. */
  predicate IsValid(st: FormState) {
    st.errors.Keys == {}
  }

  /** Right after `validateAll`, `isValid` agrees with its result. */
  lemma ValidateAllAgreesWithIsValid(rules: Rules, st: FormState)
    ensures IsValid(ValidateAll(rules, st).0) <==> ValidateAll(rules, st).1
  {
    var r := ValidateAll(rules, st);
    if !r.1 {
      var n :| n in rules && Fails(rules, st.values, n);
      assert n in r.0.errors;
    }
  }

  /** Blurring a field stores its message even when the message is `''`,
      so the form reads as invalid after blurring a valid field. */
  lemma BlurValidFieldMakesFormInvalid(rules: Rules, st: FormState, name: string)
    requires !Fails(rules, st.values, name)
    ensures var r := HandleBlur(rules, st, name);
      r.errors[name] == "" && !IsValid(r)
  {
    var r := HandleBlur(rules, st, name);
    assert name in r.errors.Keys;
  }

  /** Editing an untouched field never changes any error. */
  lemma ChangeUntouchedKeepsErrors(rules: Rules, st: FormState, name: string, value: string)
    requires name !in st.touched
    ensures HandleChange(rules, st, name, value).errors == st.errors
    ensures IsValid(HandleChange(rules, st, name, value)) == IsValid(st)
  {
  }

  /** After `reset`, a form is valid and untouched and holds the initial values. */
  lemma ResetIsValid(initial: Values, st: FormState)
    ensures var r := Reset(initial, st); IsValid(r) && r.touched == {} && r.values == initial
  {
  }
}

=== FILE: login_page.dfy ===
/**
 * The login page's form logic (`src/pages/LoginPage.js`): the redirect
 * target, `validateForm` and the change handler.
 */
module LoginPage {
  import opened Common
  import opened PageValidation
  import AuthReducer
  import Sidebar

  datatype LoginData = LoginData(email: string, password: string, rememberMe: bool)

  datatype Field = Email | Password | RememberMe

  const MinPasswordLength := 6
  const PasswordRequired := "Password is required"
  const PasswordTooShort := "Password must be at least 6 characters"
  const DefaultRedirect := "/dashboard"

  /** `location.state?.from?.pathname || '/dashboard'`: where a successful
      login navigates; `from` is the pathname the guard recorded, if any. */
  function RedirectTarget(from: Option<string>): (t: string)
    ensures Truthy(from) ==> t == from.value
    ensures !Truthy(from) ==> t == DefaultRedirect
    ensures t != ""
  {
    OrElse(from, DefaultRedirect)
  }

  /** Without a recorded page, or with an empty one, a login lands on the
      page the sidebar's dashboard link points to and lights that link. */
  lemma DefaultTargetIsDashboardLink(from: Option<string>)
    requires !Truthy(from)
    ensures RedirectTarget(from) == Sidebar.DashboardPath
    ensures Sidebar.IsActive(RedirectTarget(from), Sidebar.DashboardPath)
    ensures forall p :: p != [] ==> RedirectTarget(Some(p)) == p
  {
  }

  /** Only length is checked: no character classes, unlike registration. */
  function PasswordError(password: string): (m: Option<string>)
    ensures m.None? <==> |password| >= MinPasswordLength
    ensures m == Some(PasswordRequired) <==> password == []
    ensures m == Some(PasswordTooShort) <==> 0 < |password| < MinPasswordLength
  {
    if password == [] then Some(PasswordRequired)
    else if |password| < MinPasswordLength then Some(PasswordTooShort)
    else None
  }

  function Message(d: LoginData, f: Field): Option<string> {
    match f
    case Email => EmailError(d.email)
    case Password => PasswordError(d.password)
    case RememberMe => None
  }

  /** `validateForm()`: the error map and whether it is empty. */
  function ValidateForm(d: LoginData): (r: (map<Field, string>, bool))
    ensures r.1 <==> r.0 == map[]
    ensures RememberMe !in r.0
    ensures Email in r.0 <==> !EmailLike(d.email)
    ensures Email in r.0 ==> r.0[Email] == EmailError(d.email).value
    ensures Password in r.0 <==> |d.password| < MinPasswordLength
    ensures Password in r.0 ==> r.0[Password] == PasswordError(d.password).value
  {
    var errors := map f: Field | Message(d, f).Some? :: Message(d, f).value;
    (errors, errors == map[])
  }

  /** The form is accepted exactly when the email has the address shape and
      the password has at least six characters, whatever they are. */
  lemma AcceptedIff(d: LoginData)
    ensures ValidateForm(d).1 <==> EmailLike(d.email) && |d.password| >= MinPasswordLength
  {
    var errors := ValidateForm(d).0;
    if !ValidateForm(d).1 {
      var f :| f in errors;
    }
  }

  /** A six-digit password passes here, though registration would reject it. */
  lemma DigitsOnlyPasswordAccepted()
    ensures ValidateForm(LoginData("a@b.c", "123456", false)).1
  {
    EmailExamples();
    AcceptedIff(LoginData("a@b.c", "123456", false));
  }

  datatype Edit = SetEmail(email: string) | SetPassword(password: string) | SetRememberMe(remember: bool)

  function FieldOf(e: Edit): Field {
    match e
    case SetEmail(_) => Email
    case SetPassword(_) => Password
    case SetRememberMe(_) => RememberMe
  }

  function Apply(d: LoginData, e: Edit): LoginData {
    match e
    case SetEmail(v) => d.(email := v)
    case SetPassword(v) => d.(password := v)
    case SetRememberMe(b) => d.(rememberMe := b)
  }

  /** An edit changes the verdict of the edited field only. */
  lemma EditAffectsOwnField(d: LoginData, e: Edit, f: Field)
    requires f != FieldOf(e)
    ensures Message(Apply(d, e), f) == Message(d, f)
  {
  }

  /** The page's change handler: after an edit, every other field keeps both
      its shown message and its verdict. */
  lemma ChangeKeepsOtherFields(p: Page<LoginData, Field>, e: Edit, f: Field)
    requires f != FieldOf(e)
    ensures var r := HandleChange(p, Apply(p.data, e), FieldOf(e));
      && r.data == Apply(p.data, e)
      && (f in p.errors ==> r.errors[f] == p.errors[f])
      && Message(r.data, f) == Message(p.data, f)
  {
    EditAffectsOwnField(p.data, e, f);
  }
}

=== FILE: navbar.dfy ===
/**
 * The navigation bar's helpers (`src/components/Layout/Navbar.js`): the
 * search handler, the avatar initials and the notification badge's text.
 */
module Navbar {
  import opened Common
  import Sidebar

  // ---------------------------------------------------------------------------
  // Search

  /** `handleSearch(query)`: with a non-blank query, navigate to the search
      page for the trimmed query and close the mobile search box; otherwise
      do nothing. The result is the query searched for. */
  function HandleSearch(query: string): (r: Option<string>)
    ensures r.Some? <==> !AllSpace(query)
    ensures r.Some? ==> r.value == Trim(query) && r.value != []
    ensures r.Some? ==> !IsSpace(r.value[0]) && !IsSpace(r.value[|r.value| - 1])
  {
    var q := Trim(query);
    if q != [] then Some(q) else None
  }

  /** Searching for an already trimmed query searches for the same thing:
      surrounding blanks never reach the search page. */
  lemma SearchIgnoresSurroundingBlanks(query: string)
    ensures HandleSearch(Trim(query)) == HandleSearch(query)
  {
    TrimIdempotent(query);
  }

  // ---------------------------------------------------------------------------
  // Initials

  /** `words.map(n => n[0]).join('')`: the first character of every word;
      an empty word's `n[0]` is `undefined`, which joins as nothing. */
  function Heads(words: seq<string>): string {
    if words == [] then []
    else (if words[0] == [] then [] else [words[0][0]]) + Heads(words[1..])
  }

  /** The reference reading of "the first letter of each space-separated
      word": every non-space character that follows a space or starts the
      name. `afterSpace` says whether the previous character was a space. */
  function WordStarts(s: string, afterSpace: bool): string {
    if s == [] then []
    else (if s[0] != ' ' && afterSpace then [s[0]] else []) + WordStarts(s[1..], s[0] == ' ')
  }

  /** Splitting on spaces and taking the heads reads the word starts. */
  lemma {:induction false} HeadsOfSplit(s: string)
    ensures Heads(Split(s, ' ')) == WordStarts(s, true)
    ensures Heads(Split(s, ' ')[1..]) == WordStarts(s, false)
  {
    if s != [] {
      var rest := Split(s[1..], ' ');
      HeadsOfSplit(s[1..]);
      var parts := Split(s, ' ');
      if s[0] == ' ' {
        assert parts[1..] == rest;
      } else {
        assert parts[1..] == rest[1..];
        assert parts[0] == [s[0]] + rest[0];
      }
    }
  }

  /** The word starts are empty exactly when the text is nothing but spaces. */
  lemma {:induction false} WordStartsEmpty(s: string)
    ensures WordStarts(s, true) == [] <==> forall i :: 0 <= i < |s| ==> s[i] == ' '
  {
    if s != [] {
      WordStartsEmpty(s[1..]);
      assert forall i :: 1 <= i < |s| ==> s[i] == s[1..][i - 1];
    }
  }

  const Fallback := "U"
  const MaxInitials := 2

  /** `getUserInitials(name)`: "U" without a name; otherwise the word
      starts, upper-cased, at most two. */
  function Initials(name: Option<string>): (r: string)
    ensures |r| <= MaxInitials
    ensures !Truthy(name) ==> r == Fallback
  {
    if !Truthy(name) then Fallback
    else
      var all := Upper(Heads(Split(name.value, ' ')));
      if |all| <= MaxInitials then all else all[..MaxInitials]
  }

  /** The initials are the first two word starts, upper-cased; they are
      empty only for a name made of spaces, which is not replaced by "U". */
  lemma InitialsAreWordStarts(name: string)
    requires name != []
    ensures var starts := WordStarts(name, true);
      && |Initials(Some(name))| == (if |starts| < MaxInitials then |starts| else MaxInitials)
      && (forall i :: 0 <= i < |Initials(Some(name))| ==> Initials(Some(name))[i] == UpperChar(starts[i]))
      && (Initials(Some(name)) == [] <==> forall i :: 0 <= i < |name| ==> name[i] == ' ')
  {
    HeadsOfSplit(name);
    WordStartsEmpty(name);
  }

  lemma InitialsExamples()
    ensures Initials(None) == "U" && Initials(Some("")) == "U"
  {
  }

  // ---------------------------------------------------------------------------
  // Notification badge

  /** The badge over the bell: absent unless the count is positive, "9+"
      above nine, otherwise the count in decimal. */
  function BadgeText(count: int): (r: Option<string>)
    ensures r.Some? <==> count > 0
    ensures count > 9 ==> r == Some("9+")
    ensures 0 < count <= 9 ==> |r.value| == 1 && IsDigit(r.value[0])
  {
    if count <= 0 then None
    else if count > 9 then Some("9+")
    else Some(Decimal(count))
  }

  /** A shown single-digit badge reads back as the count itself. */
  lemma BadgeReadsBack(count: int)
    requires 0 < count <= 9
    ensures ParseDecimal(BadgeText(count).value) == count
  {
    DecimalRoundTrip(count);
  }

  /** The badge is never wider than two characters. */
  lemma BadgeIsShort(count: int)
    ensures BadgeText(count).Some? ==> |BadgeText(count).value| <= 2
  {
  }

  /** The bell's badge and the sidebar's item badges agree on when a count
      is worth showing. */
  lemma BadgesAgree(count: int)
    ensures Sidebar.ShowBadge(Some(count)) <==> BadgeText(count).Some?
    ensures !Sidebar.ShowBadge(None)
  {
  }
}

=== FILE: page_validation.dfy ===
/**
 * What the login and registration pages (`src/pages/LoginPage.js`,
 * `src/pages/RegisterPage.js`) share: the unanchored email pattern
 * `/\S+@\S+\.\S+/`, character-class scans, and the change handler's
 * clearing of one field's message and of the store's error.
 */
module PageValidation {
  import opened Common
  import AuthReducer

  /** `/\S+@\S+\.\S+/.test(s)`: somewhere in `s` there is a non-space
      character, `@`, a non-empty run of non-space characters, `.`, and a
      non-space character. */
  predicate EmailLike(s: string) {
    exists at, dot :: 0 < at && at + 1 < dot && dot + 1 < |s| && EmailAt(s, at, dot)
  }

  /** The pattern matches with its `@` at `at` and its `.` at `dot`. */
  predicate EmailAt(s: string, at: int, dot: int)
    requires 0 < at && at + 1 < dot && dot + 1 < |s|
  {
    && s[at] == '@' && s[dot] == '.'
    && !IsSpace(s[at - 1]) && !IsSpace(s[dot + 1])
    && forall k :: at < k < dot ==> !IsSpace(s[k])
  }

  /** The test is unanchored: surrounding text never stops a match. */
  lemma EmailLikeUnanchored(x: string, s: string, y: string)
    requires EmailLike(s)
    ensures EmailLike(x + s + y)
  {
    var at, dot :| 0 < at && at + 1 < dot && dot + 1 < |s| && EmailAt(s, at, dot);
    var t := x + s + y;
    assert forall k :: 0 <= k < |s| ==> t[|x| + k] == s[k];
    assert EmailAt(t, |x| + at, |x| + dot);
  }

  /** Without an `@` there is no match. */
  lemma EmailLikeNeedsAt(s: string)
    requires '@' !in s
    ensures !EmailLike(s)
  {
    forall at, dot | 0 < at && at + 1 < dot && dot + 1 < |s|
      ensures !EmailAt(s, at, dot)
    {
      assert s[at] in s;
    }
  }

  /** A space inside the address can break it. */
  lemma EmailExamples()
    ensures EmailLike("a@b.c")
    ensures !EmailLike("a@ b.c")
  {
    assert EmailAt("a@b.c", 1, 3);
    var s := "a@ b.c";
    forall at, dot | 0 < at && at + 1 < dot && dot + 1 < |s|
      ensures !EmailAt(s, at, dot)
    {
      assert s[1] == '@' && s[4] == '.' && IsSpace(s[2]);
    }
  }

  const EmailRequired := "Email is required"
  const EmailInvalid := "Please enter a valid email address"

  /** The email field's message, if any: both pages check it the same way. */
  function EmailError(email: string): (m: Option<string>)
    ensures m.None? <==> EmailLike(email)
    ensures m == Some(EmailRequired) <==> email == []
    ensures m.Some? ==> m.value in {EmailRequired, EmailInvalid}
  {
    if email == [] then Some(EmailRequired)
    else if !EmailLike(email) then Some(EmailInvalid)
    else None
  }

  /** Whether some character of `s` satisfies `f` (a regular-expression
      character class such as `/[A-Z]/`). */
  function AnyChar(s: string, f: char -> bool): (b: bool)
    ensures b <==> exists i :: 0 <= i < |s| && f(s[i])
  {
    if s == [] then false
    else if f(s[0]) then true
    else
      var rest := AnyChar(s[1..], f);
      assert forall i :: 1 <= i < |s| ==> s[i] == s[1..][i - 1];
      rest
  }

  /** `if (validationErrors[field]) setValidationErrors({...prev, [field]: ''})`:
      a non-empty message of the edited field is blanked (the key stays). */
  function ClearFieldError<F(==)>(errors: map<F, string>, field: F): (r: map<F, string>)
    ensures r.Keys == errors.Keys
    ensures field in r ==> r[field] == ""
    ensures forall f :: f in errors && f != field ==> r[f] == errors[f]
  {
    if field in errors && errors[field] != "" then errors[field := ""] else errors
  }

  /** `if (error) clearError()`: the store's error is cleared when set, and
      nothing else of the store changes. */
  function ClearGlobalError(auth: AuthReducer.AuthState): (r: AuthReducer.AuthState)
    ensures !Truthy(r.error)
    ensures r.user == auth.user && r.token == auth.token
    ensures r.isAuthenticated == auth.isAuthenticated && r.isLoading == auth.isLoading
    ensures Truthy(auth.error) ==> r.error == None
    ensures !Truthy(auth.error) ==> r == auth
  {
    if Truthy(auth.error) then AuthReducer.Reduce(auth, AuthReducer.ClearError) else auth
  }

  /** A form page's state: the form data, the per-field messages and the
      authentication store it reads. */
  datatype Page<D, F(==)> = Page(data: D, errors: map<F, string>, auth: AuthReducer.AuthState)

  /** `handleChange(field, value)` of both form pages: store the edited
      data, blank the edited field's message, and clear the store's error if
      one is shown. */
  function HandleChange<D, F(==)>(p: Page<D, F>, data: D, field: F): (r: Page<D, F>)
    ensures r.data == data
    ensures r.errors.Keys == p.errors.Keys
    ensures field in r.errors ==> r.errors[field] == ""
    ensures forall f :: f in p.errors && f != field ==> r.errors[f] == p.errors[f]
    ensures !Truthy(r.auth.error)
    ensures r.auth.token == p.auth.token && r.auth.isAuthenticated == p.auth.isAuthenticated
  {
    Page(data, ClearFieldError(p.errors, field), ClearGlobalError(p.auth))
  }
}

=== FILE: register_page.dfy ===
/**
 * The registration page's form logic (`src/pages/RegisterPage.js`): the
 * password requirements shown under the password field, `validateForm`,
 * and the change handler.
 *
 * The requirements are recomputed from the password whenever it changes,
 * so at submission they describe the current password; the model computes
 * them from it directly.
 */
module RegisterPage {
  import opened Common
  import opened PageValidation
  import AuthReducer

  datatype RegisterData = RegisterData(
    name: string,
    email: string,
    password: string,
    confirmPassword: string,
    acceptTerms: bool)

  const EmptyForm := RegisterData("", "", "", "", false)

  datatype Field = Name | Email | Password | ConfirmPassword | AcceptTerms

  datatype Requirements = Requirements(length: bool, uppercase: bool, lowercase: bool, number: bool)

  const MinPasswordLength := 6
  const MinNameLength := 2

  const NameRequired := "Full name is required"
  const NameTooShort := "Name must be at least 2 characters"
  const PasswordRequired := "Password is required"
  const PasswordWeak := "Password must meet all requirements"
  const ConfirmRequired := "Please confirm your password"
  const ConfirmMismatch := "Passwords do not match"
  const TermsRequired := "You must accept the terms and conditions"

  /** The four checks of the requirements list: `/[A-Z]/`, `/[a-z]/` and
      `/\d/` are ASCII character classes. */
  function PasswordRequirements(password: string): (r: Requirements)
    ensures r.length <==> |password| >= MinPasswordLength
    ensures r.uppercase <==> exists i :: 0 <= i < |password| && IsUpper(password[i])
    ensures r.lowercase <==> exists i :: 0 <= i < |password| && IsLower(password[i])
    ensures r.number <==> exists i :: 0 <= i < |password| && IsDigit(password[i])
  {
    Requirements(
      |password| >= MinPasswordLength,
      AnyChar(password, IsUpper),
      AnyChar(password, IsLower),
      AnyChar(password, IsDigit))
  }

  predicate MeetsAll(r: Requirements) {
    r.length && r.uppercase && r.lowercase && r.number
  }

  /** The name's message, if any. */
  function NameError(name: string): (m: Option<string>)
    ensures m.None? <==> |Trim(name)| >= MinNameLength
    ensures m == Some(NameRequired) <==> AllSpace(name)
    ensures m == Some(NameTooShort) <==> !AllSpace(name) && |Trim(name)| < MinNameLength
  {
    var t := Trim(name);
    if t == [] then Some(NameRequired)
    else if |t| < MinNameLength then Some(NameTooShort)
    else None
  }

  function PasswordError(password: string): (m: Option<string>)
    ensures m.None? <==> MeetsAll(PasswordRequirements(password))
    ensures m == Some(PasswordRequired) <==> password == []
    ensures m == Some(PasswordWeak) <==> password != [] && !MeetsAll(PasswordRequirements(password))
  {
    if password == [] then Some(PasswordRequired)
    else if !MeetsAll(PasswordRequirements(password)) then Some(PasswordWeak)
    else None
  }

  function ConfirmError(password: string, confirm: string): (m: Option<string>)
    ensures m.None? <==> confirm != [] && confirm == password
    ensures m == Some(ConfirmRequired) <==> confirm == []
    ensures m == Some(ConfirmMismatch) <==> confirm != [] && confirm != password
  {
    if confirm == [] then Some(ConfirmRequired)
    else if password != confirm then Some(ConfirmMismatch)
    else None
  }

  /** `validateForm()`: the error map (at most one message per field, as a
      map has) and whether it is empty. */
  function ValidateForm(d: RegisterData): (r: (map<Field, string>, bool))
    ensures r.1 <==> r.0 == map[]
    ensures Name in r.0 <==> NameError(d.name).Some?
    ensures Name in r.0 ==> r.0[Name] == NameError(d.name).value
    ensures Email in r.0 <==> !EmailLike(d.email)
    ensures Email in r.0 ==> r.0[Email] == EmailError(d.email).value
    ensures Password in r.0 <==> !MeetsAll(PasswordRequirements(d.password))
    ensures Password in r.0 ==> r.0[Password] == PasswordError(d.password).value
    ensures ConfirmPassword in r.0 <==> d.confirmPassword == [] || d.confirmPassword != d.password
    ensures ConfirmPassword in r.0 ==> r.0[ConfirmPassword] == ConfirmError(d.password, d.confirmPassword).value
    ensures AcceptTerms in r.0 <==> !d.acceptTerms
    ensures AcceptTerms in r.0 ==> r.0[AcceptTerms] == TermsRequired
  {
    var errors := map f: Field | Message(d, f).Some? :: Message(d, f).value;
    (errors, errors == map[])
  }

  /** The message `validateForm` records for one field. */
  function Message(d: RegisterData, f: Field): Option<string> {
    match f
    case Name => NameError(d.name)
    case Email => EmailError(d.email)
    case Password => PasswordError(d.password)
    case ConfirmPassword => ConfirmError(d.password, d.confirmPassword)
    case AcceptTerms => if d.acceptTerms then None else Some(TermsRequired)
  }

  /** The form is accepted exactly when every field is acceptable. */
  lemma AcceptedIff(d: RegisterData)
    ensures ValidateForm(d).1 <==>
      && |Trim(d.name)| >= MinNameLength
      && EmailLike(d.email)
      && |d.password| >= MinPasswordLength
      && (exists i :: 0 <= i < |d.password| && IsUpper(d.password[i]))
      && (exists i :: 0 <= i < |d.password| && IsLower(d.password[i]))
      && (exists i :: 0 <= i < |d.password| && IsDigit(d.password[i]))
      && d.confirmPassword == d.password
      && d.acceptTerms
  {
    var errors := ValidateForm(d).0;
    if !ValidateForm(d).1 {
      var f :| f in errors;
    }
  }

  /** The untouched form reports every field. */
  lemma EmptyFormReportsEveryField()
    ensures var errors := ValidateForm(EmptyForm).0;
      && errors == map[Name := NameRequired, Email := EmailRequired, Password := PasswordRequired,
                       ConfirmPassword := ConfirmRequired, AcceptTerms := TermsRequired]
  {
    var errors := ValidateForm(EmptyForm).0;
    assert AllSpace(EmptyForm.name);
    assert errors.Keys == {Name, Email, Password, ConfirmPassword, AcceptTerms};
  }

  /** One edit of the form. */
  datatype Edit =
    | SetName(name: string)
    | SetEmail(email: string)
    | SetPassword(password: string)
    | SetConfirmPassword(confirm: string)
    | SetAcceptTerms(accepted: bool)

  function FieldOf(e: Edit): Field {
    match e
    case SetName(_) => Name
    case SetEmail(_) => Email
    case SetPassword(_) => Password
    case SetConfirmPassword(_) => ConfirmPassword
    case SetAcceptTerms(_) => AcceptTerms
  }

  function Apply(d: RegisterData, e: Edit): RegisterData {
    match e
    case SetName(v) => d.(name := v)
    case SetEmail(v) => d.(email := v)
    case SetPassword(v) => d.(password := v)
    case SetConfirmPassword(v) => d.(confirmPassword := v)
    case SetAcceptTerms(b) => d.(acceptTerms := b)
  }

  /** An edit changes the verdict of the edited field only, except that a
      new password can also change the confirmation's verdict. */
  lemma EditAffectsOwnField(d: RegisterData, e: Edit, f: Field)
    requires f != FieldOf(e)
    requires !(FieldOf(e) == Password && f == ConfirmPassword)
    ensures Message(Apply(d, e), f) == Message(d, f)
  {
  }

  /** The page's change handler: after an edit, every other field keeps both
      its shown message and its verdict. */
  lemma ChangeKeepsOtherFields(p: Page<RegisterData, Field>, e: Edit, f: Field)
    requires f != FieldOf(e)
    requires !(FieldOf(e) == Password && f == ConfirmPassword)
    ensures var r := HandleChange(p, Apply(p.data, e), FieldOf(e));
      && r.data == Apply(p.data, e)
      && (f in p.errors ==> r.errors[f] == p.errors[f])
      && Message(r.data, f) == Message(p.data, f)
  {
    EditAffectsOwnField(p.data, e, f);
  }
}

=== FILE: session.dfy ===
/**
 * The session operations of the authentication store
 * (`src/contexts/AuthContext.jsx`): `loadUser`, `login`, `register`,
 * `logout`, `updateProfile`, `changePassword`, `refreshToken` and
 * `clearError`.
 *
 * Each operation is one atomic step on the pre-call session. The remote call
 * it awaits is an input (`Remote`): what the identity service answered, or
 * the error it rejected with. The session holds the reducer state, the
 * persisted token (the `token` entry of local storage) and the shared HTTP
 * client's default headers.
 */
module Session {
  import opened Common
  import opened AuthReducer
  import Api
  import TokenExpiry

  datatype Session = Session(auth: AuthState, stored: Option<string>, headers: Api.Headers)

  const Start := Session(Initial, None, map[])

  /** How a remote call settled. */
  datatype Remote<T> = Ok(value: T) | Err(error: Api.ApiError)

  /** `response.data` of a login or registration. */
  datatype AuthResponse = AuthResponse(token: string, user: Option<User>)

  /** The `{ success, user?, error? }` objects the operations return. */
  datatype OpResult = Succeeded(user: Option<User>) | Failed(error: Option<string>)

  const LoginFallback := "Login failed"
  const RegisterFallback := "Registration failed"
  const LoadUserFallback := "Failed to load user"
  const NoTokenMessage := "No token found"
  const ProfileFallback := "Failed to update profile"
  const PasswordFallback := "Failed to change password"

  /** `error.response?.data?.error || fallback` */
  function FailureMessage(e: Api.ApiError, fallback: string): (m: string)
    ensures Truthy(e.ServerMessage()) ==> m == e.ServerMessage().value
    ensures !Truthy(e.ServerMessage()) ==> m == fallback
  {
    OrElse(e.ServerMessage(), fallback)
  }

  predicate Valid(s: Session) {
    TokenImpliesAuthenticated(s.auth)
  }

  /** Shared body of `login` and `register`: dispatch the start action, then
      on success persist the token, set the bearer header and install the
      session; on failure record the message. Never throws. */
  function Authenticate(s: Session, outcome: Remote<AuthResponse>, isLogin: bool): (r: (Session, OpResult))
    ensures Valid(s) ==> Valid(r.0)
    ensures outcome.Ok? <==> r.1.Succeeded?
    ensures outcome.Ok? ==>
      && r.1.user == outcome.value.user
      && r.0.stored == Some(outcome.value.token)
      && r.0.auth.token == Some(outcome.value.token) && r.0.auth.user == outcome.value.user
      && r.0.auth.isAuthenticated && !r.0.auth.isLoading && r.0.auth.error == None
      && r.0.headers == Api.SetAuthToken(s.headers, Some(outcome.value.token))
    ensures outcome.Err? ==>
      && r.1.error == Some(FailureMessage(outcome.error, if isLogin then LoginFallback else RegisterFallback))
      && r.0.auth.error == r.1.error
      && r.0.auth.token == None && r.0.auth.user == None
      && !r.0.auth.isAuthenticated && !r.0.auth.isLoading
      && r.0.stored == s.stored && r.0.headers == s.headers
  {
    var started := Reduce(s.auth, if isLogin then LoginStart else RegisterStart);
    match outcome
    case Ok(resp) =>
      var success := if isLogin then LoginSuccess(resp.user, resp.token) else RegisterSuccess(resp.user, resp.token);
      (Session(Reduce(started, success), Some(resp.token), Api.SetAuthToken(s.headers, Some(resp.token))),
       Succeeded(resp.user))
    case Err(e) =>
      var msg := FailureMessage(e, if isLogin then LoginFallback else RegisterFallback);
      var failure := if isLogin then LoginFailure(msg) else RegisterFailure(msg);
      (s.(auth := Reduce(started, failure)), Failed(Some(msg)))
  }

  /** `login(email, password)`; the credentials only travel to the service. */
  function Login(s: Session, outcome: Remote<AuthResponse>): (r: (Session, OpResult))
    ensures Valid(s) ==> Valid(r.0)
    ensures outcome.Err? ==> r.1 == Failed(Some(FailureMessage(outcome.error, LoginFallback)))
    ensures outcome.Ok? ==> r.1 == Succeeded(outcome.value.user)
    ensures r.1.Succeeded? <==> r.0.auth.isAuthenticated
  {
    Authenticate(s, outcome, true)
  }

  /** `register(name, email, password)` */
  function Register(s: Session, outcome: Remote<AuthResponse>): (r: (Session, OpResult))
    ensures Valid(s) ==> Valid(r.0)
    ensures outcome.Err? ==> r.1 == Failed(Some(FailureMessage(outcome.error, RegisterFallback)))
    ensures outcome.Ok? ==> r.1 == Succeeded(outcome.value.user)
    ensures r.1.Succeeded? <==> r.0.auth.isAuthenticated
  {
    Authenticate(s, outcome, false)
  }

  /** `logout()`: the remote call is made only while a token is held, and
      its failure is ignored; the persisted token and the header are always
      cleared and `LOGOUT` is always dispatched. The second component says
      whether the remote endpoint was called. */
  function Logout(s: Session): (r: (Session, bool))
    ensures r.1 <==> Truthy(s.auth.token)
    ensures r.0.stored == None
    ensures Api.Authorization !in r.0.headers
    ensures r.0.auth == Reduce(s.auth, AuthReducer.Logout)
    ensures Valid(r.0)
  {
    (Session(Reduce(s.auth, AuthReducer.Logout), None, Api.RemoveAuthToken(s.headers)),
     Truthy(s.auth.token))
  }

  /** `loadUser()`: with no persisted token it fails with "No token found";
      otherwise it sets the header, asks the service for the user, and either
      installs user and token or clears the persisted token and the header. */
  function LoadUser(s: Session, outcome: Remote<Option<User>>): (r: Session)
    ensures Valid(s) ==> Valid(r)
    ensures !Truthy(s.stored) ==>
      r.auth.error == Some(NoTokenMessage) && !r.auth.isAuthenticated
      && r.auth.user == None && r.auth.token == None
      && r.stored == s.stored && r.headers == s.headers
    ensures Truthy(s.stored) && outcome.Ok? ==>
      && r.auth.isAuthenticated && r.auth.token == s.stored && r.auth.user == outcome.value
      && r.stored == s.stored && r.headers == Api.SetAuthToken(s.headers, s.stored)
    ensures Truthy(s.stored) && outcome.Err? ==>
      && r.auth.error == Some(FailureMessage(outcome.error, LoadUserFallback))
      && !r.auth.isAuthenticated && r.auth.user == None && r.auth.token == None
      && r.stored == None && Api.Authorization !in r.headers
    ensures !r.auth.isLoading
  {
    var started := Reduce(s.auth, LoadUserStart);
    if !Truthy(s.stored) then
      s.(auth := Reduce(started, LoadUserFailure(NoTokenMessage)))
    else
      var token := s.stored.value;
      var headers := Api.SetAuthToken(s.headers, s.stored);
      match outcome
      case Ok(user) =>
        Session(Reduce(Reduce(started, LoadUserSuccess(user)), LoginSuccess(user, token)), s.stored, headers)
      case Err(e) =>
        Session(Reduce(started, LoadUserFailure(FailureMessage(e, LoadUserFallback))), None, Api.RemoveAuthToken(headers))
  }

  /** `updateProfile(data)`: success merges the returned user into the
      session; failure leaves the session alone. */
  function UpdateProfile(s: Session, outcome: Remote<Option<User>>): (r: (Session, OpResult))
    ensures Valid(s) ==> Valid(r.0)
    ensures r.0.auth.token == s.auth.token && r.0.auth.isAuthenticated == s.auth.isAuthenticated
    ensures r.0.stored == s.stored && r.0.headers == s.headers
    ensures outcome.Err? ==> r == (s, Failed(Some(FailureMessage(outcome.error, ProfileFallback))))
    ensures outcome.Ok? ==> r.1 == Succeeded(outcome.value)
    ensures outcome.Ok? ==>
      var before, changes := s.auth.user.GetOr(map[]), outcome.value.GetOr(map[]);
      && r.0.auth.user.Some?
      && r.0.auth.user.value.Keys == before.Keys + changes.Keys
      && (forall k :: k in changes ==> r.0.auth.user.value[k] == changes[k])
      && (forall k :: k in before && k !in changes ==> r.0.auth.user.value[k] == before[k])
      && r.0.auth.isLoading == s.auth.isLoading && r.0.auth.error == None
  {
    match outcome
    case Ok(user) => (s.(auth := Reduce(s.auth, UpdateUser(user))), Succeeded(user))
    case Err(e) => (s, Failed(Some(FailureMessage(e, ProfileFallback))))
  }

  /** `changePassword(current, next)`: a result only; the session is untouched. */
  function ChangePassword(outcome: Remote<()>): (r: OpResult)
    ensures r.Succeeded? <==> outcome.Ok?
    ensures r.Succeeded? ==> r.user == None
    ensures r.Failed? ==> r.error == Some(FailureMessage(outcome.error, PasswordFallback))
  {
    match outcome
    case Ok(_) => Succeeded(None)
    case Err(e) => Failed(Some(FailureMessage(e, PasswordFallback)))
  }

  /** `refreshToken()`: success persists the new token and re-installs the
      session with the current user; failure logs out. The boolean is the
      returned `success`. */
  function RefreshToken(s: Session, outcome: Remote<string>): (r: (Session, bool))
    ensures Valid(s) ==> Valid(r.0)
    ensures r.1 <==> outcome.Ok?
    ensures outcome.Ok? ==>
      && r.0.stored == Some(outcome.value) && r.0.auth.token == Some(outcome.value)
      && r.0.auth.user == s.auth.user && r.0.auth.isAuthenticated
      && r.0.headers == Api.SetAuthToken(s.headers, Some(outcome.value))
    ensures outcome.Err? ==> r.0 == Logout(s).0
  {
    match outcome
    case Ok(token) =>
      (Session(Reduce(s.auth, LoginSuccess(s.auth.user, token)), Some(token), Api.SetAuthToken(s.headers, Some(token))), true)
    case Err(_) =>
      (Logout(s).0, false)
  }

  /** `clearError()` */
  function ClearError(s: Session): (r: Session)
    ensures r.auth.error == None
    ensures r.auth == s.auth.(error := None) && r.stored == s.stored && r.headers == s.headers
  {
    s.(auth := Reduce(s.auth, AuthReducer.ClearError))
  }

  /** A login that the service rejects with "Invalid credentials" leaves a
      failed, token-less session carrying that message. */
  lemma RejectedLoginScenario(s: Session, status: int)
    ensures var e := Api.ErrorObject(None, Some(Api.Response(status, Some("Invalid credentials"))), true);
      var r := Login(s, Err(e));
      && r.1 == Failed(Some("Invalid credentials"))
      && r.0.auth.error == Some("Invalid credentials")
      && r.0.auth.token == None && r.0.auth.user == None && !r.0.auth.isAuthenticated
  {
  }

  /** A login whose token has already expired is logged out by the expiry
      effect straight away, which leaves no session and no persisted token. */
  lemma ExpiredLoginIsLoggedOut(s: Session, resp: AuthResponse, claim: TokenExpiry.Claim, now: int)
    requires resp.token != ""
    requires TokenExpiry.IsTokenExpired(Some(resp.token), claim, now)
    ensures var signedIn := Login(s, Ok(resp)).0;
      && TokenExpiry.OnTokenChange(signedIn.auth.token, claim, now).logoutNow
      && var out := Logout(signedIn);
      && out.1
      && !out.0.auth.isAuthenticated && out.0.auth.token == None && out.0.stored == None
  {
  }
}

=== FILE: sidebar.dfy ===
/**
 * The sidebar's helpers (`src/components/Layout/Sidebar.js`): the "popular
 * tags" list built from the notes' comma-separated `tags` fields, the
 * active-link test, and badge visibility.
 *
 * Tag counting walks the notes in order and keeps one counter per distinct
 * tag, in the order tags were first met. The counters are then sorted by
 * non-increasing count with a stable sort and the first ten kept. Object
 * key order puts integer-like keys first; the model keeps first-occurrence
 * order for every key. That order decides the order among equal counts and
 * which of several tags tied at the tenth count are kept; the contracts here
 * promise neither.
 *
 * The counter is a plain object, so in the program a tag named after an
 * `Object.prototype` member (`constructor`, `toString`, ...) starts from the
 * inherited function, not from zero, and a `__proto__` tag is never
 * recorded. The model counts every tag from zero.
 */
module Sidebar {
  import opened Common

  // ---------------------------------------------------------------------------
  // Tokens

  /** The trimmed, non-empty pieces, in order. */
  function Keep(parts: seq<string>): (tokens: seq<string>)
    ensures |tokens| <= |parts|
    ensures forall i :: 0 <= i < |tokens| ==> tokens[i] != []
  {
    if parts == [] then []
    else
      var t := Trim(parts[0]);
      if t == [] then Keep(parts[1..]) else [t] + Keep(parts[1..])
  }

  /** `token` is the trimmed text of one of the pieces. */
  predicate TrimmedPiece(token: string, parts: seq<string>) {
    exists j :: 0 <= j < |parts| && token == Trim(parts[j])
  }

  /** Every token is a trimmed piece. */
  lemma {:induction false} KeepSound(parts: seq<string>)
    ensures forall i :: 0 <= i < |Keep(parts)| ==> TrimmedPiece(Keep(parts)[i], parts)
  {
    if parts != [] {
      KeepSound(parts[1..]);
      var rest := Keep(parts[1..]);
      var tokens := Keep(parts);
      var skip := |tokens| - |rest|;
      assert tokens[skip..] == rest;
      forall i | 0 <= i < |tokens|
        ensures TrimmedPiece(tokens[i], parts)
      {
        if i < skip {
          assert tokens[i] == Trim(parts[0]);
        } else {
          assert TrimmedPiece(rest[i - skip], parts[1..]);
          var j :| 0 <= j < |parts[1..]| && rest[i - skip] == Trim(parts[1..][j]);
          assert parts[1..][j] == parts[j + 1];
          assert tokens[i] == Trim(parts[j + 1]);
        }
      }
    }
  }

  /** Every non-blank piece gives a token. */
  lemma {:induction false} KeepComplete(parts: seq<string>)
    ensures forall j :: 0 <= j < |parts| && Trim(parts[j]) != [] ==> Trim(parts[j]) in Keep(parts)
  {
    if parts != [] {
      KeepComplete(parts[1..]);
      forall j | 1 <= j < |parts| && Trim(parts[j]) != []
        ensures Trim(parts[j]) in Keep(parts)
      {
        assert parts[1..][j - 1] == parts[j];
      }
    }
  }

  /** Keeping distributes over concatenation, so the pieces keep their order. */
  lemma {:induction false} KeepAppend(a: seq<string>, b: seq<string>)
    ensures Keep(a + b) == Keep(a) + Keep(b)
  {
    if a == [] {
      assert a + b == b;
    } else {
      assert (a + b)[0] == a[0];
      assert (a + b)[1..] == a[1..] + b;
      KeepAppend(a[1..], b);
    }
  }

  /** The tokens of one note: `tags.split(',')`, each trimmed, blanks
      dropped; a note without tags has none. */
  function NoteTokens(tags: Option<string>): (tokens: seq<string>)
    ensures !Truthy(tags) ==> tokens == []
    ensures forall i :: 0 <= i < |tokens| ==> tokens[i] != [] && ',' !in tokens[i]
    ensures tags.Some? ==> forall j :: 0 <= j < |Split(tags.value, ',')| && Trim(Split(tags.value, ',')[j]) != [] ==>
      Trim(Split(tags.value, ',')[j]) in tokens
    ensures tags.Some? ==> forall i :: 0 <= i < |tokens| ==> TrimmedPiece(tokens[i], Split(tags.value, ','))
  {
    if tags.Some? then
      var parts := Split(tags.value, ',');
      KeepHasNoSeparator(parts, ',');
      KeepSound(parts);
      KeepComplete(parts);
      SplitEmpty(tags.value);
      Keep(parts)
    else []
  }

  /** An empty tag list splits into one blank piece. */
  lemma SplitEmpty(tags: string)
    ensures tags == [] ==> Keep(Split(tags, ',')) == []
  {
  }

  /** A tag list without commas is one token, its trimmed text, unless blank. */
  lemma NoteTokensOfOneTag(tag: string)
    requires ',' !in tag
    ensures NoteTokens(Some(tag)) == if AllSpace(tag) then [] else [Trim(tag)]
  {
    SplitWithout(tag, ',');
  }

  /** The tokens of `a,b` are the tokens of `a` followed by those of `b`:
      together with the one-tag case this fixes the tokens and their order. */
  lemma NoteTokensConcat(a: string, b: string)
    ensures NoteTokens(Some(a + "," + b)) == NoteTokens(Some(a)) + NoteTokens(Some(b))
  {
    SplitConcat(a, b, ',');
    KeepAppend(Split(a, ','), Split(b, ','));
    SplitWithout("", ',');
  }

  /** Trimming keeps a piece free of the separator. */
  lemma KeepHasNoSeparator(parts: seq<string>, sep: char)
    requires forall j :: 0 <= j < |parts| ==> sep !in parts[j]
    ensures forall i :: 0 <= i < |Keep(parts)| ==> sep !in Keep(parts)[i]
  {
    var tokens := Keep(parts);
    KeepSound(parts);
    forall i | 0 <= i < |tokens|
      ensures sep !in tokens[i]
    {
      assert TrimmedPiece(tokens[i], parts);
      var j :| 0 <= j < |parts| && tokens[i] == Trim(parts[j]);
      TrimInside(parts[j]);
    }
  }

  /** Every character of a trimmed string comes from the string. */
  lemma TrimInside(s: string)
    ensures forall c :: c in Trim(s) ==> c in s
  {
    var r := Trim(s);
    var i := LeadLen(s);
    forall c | c in r
      ensures c in s
    {
      var k :| 0 <= k < |r| && r[k] == c;
      assert s[i + k] == c;
    }
  }

  /** The tokens of all notes, in note order. */
  function AllTokens(notes: seq<Option<string>>): (tokens: seq<string>)
    ensures forall i :: 0 <= i < |tokens| ==> tokens[i] != []
  {
    if notes == [] then [] else AllTokens(notes[..|notes| - 1]) + NoteTokens(notes[|notes| - 1])
  }

  // ---------------------------------------------------------------------------
  // Counting

  datatype TagCount = TagCount(tag: string, count: nat)

  /** The total count `tag` has in `t`. */
  function Occ(t: seq<TagCount>, tag: string): nat {
    if t == [] then 0 else (if t[0].tag == tag then t[0].count else 0) + Occ(t[1..], tag)
  }

  function Sum(t: seq<TagCount>): nat {
    if t == [] then 0 else t[0].count + Sum(t[1..])
  }

  predicate DistinctTags(t: seq<TagCount>) {
    forall i, j :: 0 <= i < j < |t| ==> t[i].tag != t[j].tag
  }

  predicate Positive(t: seq<TagCount>) {
    forall i :: 0 <= i < |t| ==> t[i].count >= 1
  }

  function TagSet(t: seq<TagCount>): set<string> {
    set e | e in t :: e.tag
  }

  /** A non-empty list without repeated tags: its tail has none, and the
      head's tag is not in the tail. */
  lemma DistinctUncons(t: seq<TagCount>)
    requires t != [] && DistinctTags(t)
    ensures DistinctTags(t[1..]) && t[0].tag !in TagSet(t[1..])
  {
    forall i, j | 0 <= i < j < |t[1..]|
      ensures t[1..][i].tag != t[1..][j].tag
    {
      assert t[1..][i] == t[i + 1] && t[1..][j] == t[j + 1];
    }
    forall e | e in t[1..]
      ensures e.tag != t[0].tag
    {
      var k :| 0 <= k < |t[1..]| && t[1..][k] == e;
      assert t[k + 1] == e;
    }
  }

  lemma DistinctCons(h: TagCount, t: seq<TagCount>)
    requires DistinctTags(t) && h.tag !in TagSet(t)
    ensures DistinctTags([h] + t)
  {
    var r := [h] + t;
    forall i, j | 0 <= i < j < |r|
      ensures r[i].tag != r[j].tag
    {
      if i == 0 {
        assert r[j] == t[j - 1] && r[j] in t;
      } else {
        assert r[i] == t[i - 1] && r[j] == t[j - 1];
      }
    }
  }

  /** `tagCounts[tag] = (tagCounts[tag] || 0) + 1` */
  function Bump(t: seq<TagCount>, tag: string): (r: seq<TagCount>)
    ensures TagSet(r) == TagSet(t) + {tag}
    ensures Positive(t) ==> Positive(r)
  {
    if t == [] then [TagCount(tag, 1)]
    else
      assert t == [t[0]] + t[1..];
      if t[0].tag == tag then [t[0].(count := t[0].count + 1)] + t[1..]
      else [t[0]] + Bump(t[1..], tag)
  }

  lemma {:induction false} BumpOcc(t: seq<TagCount>, tag: string, y: string)
    ensures Occ(Bump(t, tag), y) == Occ(t, y) + (if y == tag then 1 else 0)
  {
    if t != [] {
      var r := Bump(t, tag);
      if t[0].tag == tag {
        assert r[1..] == t[1..];
      } else {
        BumpOcc(t[1..], tag, y);
        assert r[1..] == Bump(t[1..], tag);
      }
    }
  }

  lemma {:induction false} BumpSum(t: seq<TagCount>, tag: string)
    ensures Sum(Bump(t, tag)) == Sum(t) + 1
  {
    if t != [] {
      var r := Bump(t, tag);
      if t[0].tag == tag {
        assert r[1..] == t[1..];
      } else {
        BumpSum(t[1..], tag);
        assert r[1..] == Bump(t[1..], tag);
      }
    }
  }

  lemma {:induction false} BumpDistinct(t: seq<TagCount>, tag: string)
    requires DistinctTags(t)
    ensures DistinctTags(Bump(t, tag))
  {
    if t != [] {
      var r := Bump(t, tag);
      DistinctUncons(t);
      if t[0].tag == tag {
        assert r[1..] == t[1..];
        DistinctCons(r[0], t[1..]);
        assert r == [r[0]] + t[1..];
      } else {
        BumpDistinct(t[1..], tag);
        DistinctCons(t[0], Bump(t[1..], tag));
      }
    }
  }

  /** The counters after the given tokens, in first-occurrence order. */
  function Tally(tokens: seq<string>): (t: seq<TagCount>)
    ensures DistinctTags(t) && Positive(t)
    ensures forall y :: Occ(t, y) == multiset(tokens)[y]
  {
    if tokens == [] then []
    else
      var init := tokens[..|tokens| - 1];
      var last := tokens[|tokens| - 1];
      var before := Tally(init);
      BumpDistinct(before, last);
      assert tokens == init + [last];
      assert multiset(tokens) == multiset(init) + multiset{last};
      assert forall y :: Occ(Bump(before, last), y) == Occ(before, y) + (if y == last then 1 else 0) by {
        forall y { BumpOcc(before, last, y); }
      }
      Bump(before, last)
  }

  /** Every token is counted once: the counters sum to the number of tokens. */
  lemma {:induction false} TallySum(tokens: seq<string>)
    ensures Sum(Tally(tokens)) == |tokens|
  {
    if tokens != [] {
      var init := tokens[..|tokens| - 1];
      TallySum(init);
      BumpSum(Tally(init), tokens[|tokens| - 1]);
    }
  }

  /** With positive counts, a tag has a counter exactly when it occurs. */
  lemma {:induction false} OccPositive(t: seq<TagCount>, y: string)
    requires Positive(t)
    ensures Occ(t, y) > 0 <==> y in TagSet(t)
  {
    if t != [] {
      assert t == [t[0]] + t[1..];
      assert Positive(t[1..]) by {
        forall i | 0 <= i < |t[1..]| ensures t[1..][i].count >= 1 { assert t[1..][i] == t[i + 1]; }
      }
      OccPositive(t[1..], y);
      assert TagSet(t) == {t[0].tag} + TagSet(t[1..]);
    }
  }

  /** In a list without repeated tags, an entry's count is its tag's total. */
  lemma {:induction false} OccOfEntry(t: seq<TagCount>, e: TagCount)
    requires DistinctTags(t) && e in t
    ensures Occ(t, e.tag) == e.count
  {
    DistinctUncons(t);
    if t[0] == e {
      OccAbsent(t[1..], e.tag);
    } else {
      assert e in t[1..];
      OccOfEntry(t[1..], e);
    }
  }

  lemma {:induction false} OccAbsent(t: seq<TagCount>, tag: string)
    requires tag !in TagSet(t)
    ensures Occ(t, tag) == 0
  {
    if t != [] {
      assert t[0] in t;
      assert TagSet(t[1..]) <= TagSet(t) by {
        forall x | x in TagSet(t[1..]) ensures x in TagSet(t) {
          var e :| e in t[1..] && e.tag == x;
          assert e in t;
        }
      }
      OccAbsent(t[1..], tag);
    }
  }

  // ---------------------------------------------------------------------------
  // Sorting and the top ten

  predicate SortedDesc(t: seq<TagCount>) {
    forall i, j :: 0 <= i < j < |t| ==> t[i].count >= t[j].count
  }

  /** Insert `e` before the first entry whose count is not greater, so that
      among equal counts the entries keep their order. */
  function Insert(e: TagCount, t: seq<TagCount>): (r: seq<TagCount>)
    ensures multiset(r) == multiset(t) + multiset{e}
  {
    if t == [] || t[0].count <= e.count then [e] + t
    else
      assert t == [t[0]] + t[1..];
      [t[0]] + Insert(e, t[1..])
  }

  /** Inserting keeps a common upper bound on the counts. */
  lemma {:induction false} InsertBelow(e: TagCount, t: seq<TagCount>, bound: int)
    requires e.count <= bound
    requires forall i :: 0 <= i < |t| ==> t[i].count <= bound
    ensures forall i :: 0 <= i < |Insert(e, t)| ==> Insert(e, t)[i].count <= bound
  {
    if t != [] && t[0].count > e.count {
      InsertBelow(e, t[1..], bound);
    }
  }

  lemma {:induction false} InsertSorted(e: TagCount, t: seq<TagCount>)
    requires SortedDesc(t)
    ensures SortedDesc(Insert(e, t))
  {
    if t != [] && t[0].count > e.count {
      var tail := t[1..];
      assert SortedDesc(tail) by {
        forall i, j | 0 <= i < j < |tail|
          ensures tail[i].count >= tail[j].count
        {
          assert tail[i] == t[i + 1] && tail[j] == t[j + 1];
        }
      }
      InsertSorted(e, tail);
      InsertBelow(e, tail, t[0].count);
      var rest := Insert(e, tail);
      var r := [t[0]] + rest;
      assert Insert(e, t) == r;
      forall i, j | 0 <= i < j < |r|
        ensures r[i].count >= r[j].count
      {
        assert r[j] == rest[j - 1];
        if i > 0 {
          assert r[i] == rest[i - 1];
        }
      }
    }
  }

  /** `.sort(([, a], [, b]) => b - a)`, a stable sort by non-increasing count. */
  function SortDesc(t: seq<TagCount>): (r: seq<TagCount>)
    ensures multiset(r) == multiset(t)
    ensures SortedDesc(r)
  {
    if t == [] then []
    else
      assert t == [t[0]] + t[1..];
      InsertSorted(t[0], SortDesc(t[1..]));
      Insert(t[0], SortDesc(t[1..]))
  }

  /** A permutation of a list without repeated tags has none either. */
  lemma DistinctPermutation(a: seq<TagCount>, b: seq<TagCount>)
    requires multiset(a) == multiset(b) && DistinctTags(a)
    ensures DistinctTags(b)
  {
    forall i, j | 0 <= i < j < |b|
      ensures b[i].tag != b[j].tag
    {
      if b[i].tag == b[j].tag {
        var x, y := b[i], b[j];
        assert x in multiset(a) && y in multiset(a);
        var p :| 0 <= p < |a| && a[p] == x;
        var q :| 0 <= q < |a| && a[q] == y;
        if x == y {
          TwiceInMultiset(b, i, j);
          SingleInMultiset(a, x);
        }
      }
    }
  }

  lemma TwiceInMultiset(b: seq<TagCount>, i: int, j: int)
    requires 0 <= i < j < |b| && b[i] == b[j]
    ensures multiset(b)[b[i]] >= 2
  {
    assert b == b[..j] + b[j..];
    assert b[i] in b[..j];
    assert b[j] in b[j..];
    assert multiset(b) == multiset(b[..j]) + multiset(b[j..]);
  }

  lemma {:induction false} SingleInMultiset(a: seq<TagCount>, x: TagCount)
    requires DistinctTags(a)
    ensures multiset(a)[x] <= 1
  {
    if a != [] {
      assert a == [a[0]] + a[1..];
      DistinctUncons(a);
      SingleInMultiset(a[1..], x);
      if a[0] == x {
        assert x !in a[1..];
      }
    }
  }

  const TopCount := 10

  /** The popular-tags list: at most ten entries, no tag twice, counts
      non-increasing, each count the number of occurrences of its tag, and
      no omitted tag more frequent than the last one shown. */
  function CommonTags(notes: seq<Option<string>>): (r: seq<TagCount>)
    ensures |r| <= TopCount
    ensures DistinctTags(r) && SortedDesc(r)
    ensures forall i :: 0 <= i < |r| ==> r[i].count == multiset(AllTokens(notes))[r[i].tag] >= 1
    ensures forall y :: y in multiset(AllTokens(notes)) && y !in TagSet(r) ==>
      |r| == TopCount && multiset(AllTokens(notes))[y] <= r[|r| - 1].count
  {
    TopTags(AllTokens(notes))
  }

  /** `.slice(0, 10)` */
  function Take(sorted: seq<TagCount>): (r: seq<TagCount>)
    ensures |r| <= TopCount && LeadingPart(r, sorted)
    ensures |sorted| > TopCount ==> |r| == TopCount
  {
    if |sorted| <= TopCount then sorted else sorted[..TopCount]
  }

  predicate LeadingPart(r: seq<TagCount>, s: seq<TagCount>) {
    |r| <= |s| && forall q :: 0 <= q < |r| ==> r[q] == s[q]
  }

  function TopTags(tokens: seq<string>): (r: seq<TagCount>)
    ensures |r| <= TopCount
    ensures DistinctTags(r) && SortedDesc(r)
    ensures forall i :: 0 <= i < |r| ==> r[i].count == multiset(tokens)[r[i].tag] >= 1
    ensures forall y :: y in multiset(tokens) && y !in TagSet(r) ==>
      |r| == TopCount && multiset(tokens)[y] <= r[|r| - 1].count
  {
    var counts := Tally(tokens);
    var sorted := SortDesc(counts);
    DistinctPermutation(counts, sorted);
    var r := Take(sorted);
    IncludedCounts(tokens, counts, sorted, r);
    forall y | y in multiset(tokens) && y !in TagSet(r)
      ensures |r| == TopCount && multiset(tokens)[y] <= r[|r| - 1].count
    {
      OmittedNotMoreFrequent(tokens, counts, sorted, r, y);
    }
    r
  }

  lemma IncludedCounts(tokens: seq<string>, counts: seq<TagCount>, sorted: seq<TagCount>, r: seq<TagCount>)
    requires counts == Tally(tokens) && multiset(sorted) == multiset(counts) && SortedDesc(sorted)
    requires r == Take(sorted)
    ensures DistinctTags(sorted) ==> DistinctTags(r)
    ensures SortedDesc(r)
    ensures forall i :: 0 <= i < |r| ==> r[i].count == multiset(tokens)[r[i].tag] >= 1
  {
    forall i | 0 <= i < |r|
      ensures r[i].count == multiset(tokens)[r[i].tag] >= 1
    {
      assert r[i] == sorted[i];
      assert sorted[i] in multiset(counts);
      OccOfEntry(counts, sorted[i]);
    }
  }

  lemma OmittedNotMoreFrequent(tokens: seq<string>, counts: seq<TagCount>, sorted: seq<TagCount>, r: seq<TagCount>, y: string)
    requires counts == Tally(tokens) && multiset(sorted) == multiset(counts) && SortedDesc(sorted)
    requires r == Take(sorted)
    requires y in multiset(tokens) && y !in TagSet(r)
    ensures |r| == TopCount && multiset(tokens)[y] <= r[|r| - 1].count
  {
    OccPositive(counts, y);
    var e :| e in counts && e.tag == y;
    OccOfEntry(counts, e);
    assert e in multiset(sorted);
    var p :| 0 <= p < |sorted| && sorted[p] == e;
    assert forall q :: 0 <= q < |r| ==> r[q] in r;
    assert sorted[|r| - 1] == r[|r| - 1];
  }

  /** Every token is counted once: the counters sum to the number of tokens,
      repeats within a note included. */
  lemma CountsSumToTokens(notes: seq<Option<string>>)
    ensures Sum(Tally(AllTokens(notes))) == |AllTokens(notes)|
    ensures forall y :: Occ(Tally(AllTokens(notes)), y) == multiset(AllTokens(notes))[y]
  {
    TallySum(AllTokens(notes));
  }

  // ---------------------------------------------------------------------------
  // Navigation

  const DashboardPath := "/dashboard"

  /** `isActive(path)` for the current pathname: the dashboard link matches
      its path exactly, every other link any pathname starting with its path. */
  function IsActive(pathname: string, path: string): (b: bool)
    ensures path == DashboardPath ==> (b <==> pathname == DashboardPath)
    ensures path != DashboardPath ==> (b <==> IsPrefix(path, pathname))
  {
    if path == DashboardPath then pathname == DashboardPath else StartsWith(pathname, path)
  }

  /** Nested pages activate their section's link, except under the
      dashboard; the prefix test also activates a sibling that merely starts
      with the same letters. */
  lemma ActiveExamples(path: string, rest: string)
    requires path != DashboardPath
    ensures IsActive(path + rest, path)
    ensures !IsActive(DashboardPath + "/stats", DashboardPath)
    ensures IsActive("/notes-archive", "/notes")
  {
    assert (path + rest)[..|path|] == path;
    assert "/notes-archive"[..|"/notes"|] == "/notes";
  }

  /** Every link is active on its own page, and a non-dashboard link stays
      active on every page nested below an active one. */
  lemma ActiveBelow(pathname: string, path: string, rest: string)
    ensures IsActive(path, path)
    ensures path != DashboardPath && IsActive(pathname, path) ==> IsActive(pathname + rest, path)
    ensures path == DashboardPath && rest != [] ==> !IsActive(pathname + rest, path) || !IsActive(pathname, path)
  {
    assert path[..|path|] == path;
    if path != DashboardPath && IsActive(pathname, path) {
      assert (pathname + rest)[..|path|] == pathname[..|path|];
    }
  }

  /** `item.badge !== null && item.badge > 0`; an absent badge is hidden. */
  function ShowBadge(badge: Option<int>): (b: bool)
    ensures b <==> badge.Some? && badge.value > 0
  {
    match badge
    case None => false
    case Some(n) => n > 0
  }
}

=== FILE: theme.dfy ===
/**
 * The theme store of `src/contexts/NotificationContext.js` (the file holds
 * the theme provider): `themeReducer`, the provider's guarded commands
 * (`setTheme`, the restore of saved preferences, the system colour-scheme
 * preference), `getCurrentTheme`, `isDark` and `isLight`.
 *
 * Local storage and the media query are inputs of the commands. A theme
 * definition keeps its name, its colours (the primary trio stands for the
 * palette) and its font-size scale; spacing, shadows and the other
 * constant tables play no part in any decision and are not modelled.
 */
module Theme {
  import opened Common

  datatype ThemeDef = ThemeDef(name: string, colors: map<string, string>, fontSizes: map<string, Option<string>>)

  datatype Preferences = Preferences(animations: bool, reducedMotion: bool, highContrast: bool)

  datatype ThemeState = ThemeState(
    currentTheme: string,
    themes: map<string, ThemeDef>,
    fontSize: string,
    sidebarCollapsed: bool,
    preferences: Preferences)

  const Light := "light"
  const Dark := "dark"
  const BaseSize := "base"

  const FontSizes: map<string, Option<string>> := map[
    "xs" := Some("0.75rem"), "sm" := Some("0.875rem"), "base" := Some("1rem"),
    "lg" := Some("1.125rem"), "xl" := Some("1.25rem"), "2xl" := Some("1.5rem"),
    "3xl" := Some("1.875rem"), "4xl" := Some("2.25rem")]

  const LightTheme := ThemeDef(Light,
    map["primary" := "#2563eb", "primaryLight" := "#3b82f6", "primaryDark" := "#1d4ed8"],
    FontSizes)

  /** The dark theme is the light one with its name and colours overridden. */
  const DarkTheme := LightTheme.(name := Dark,
    colors := LightTheme.colors + map["primary" := "#3b82f6", "primaryLight" := "#60a5fa", "primaryDark" := "#2563eb"])

  const InitialThemes := map[Light := LightTheme, Dark := DarkTheme]

  const Initial := ThemeState(Light, InitialThemes, BaseSize, false, Preferences(true, false, false))

  datatype ThemeAction =
    | SetTheme(themeName: string)
    | ToggleTheme
    | SetFontSize(size: string)
    | SetSidebarCollapsed(collapsed: bool)
    | ResetTheme
    | Unrecognized(actionType: string)

  function Reduce(s: ThemeState, a: ThemeAction): (r: ThemeState)
    ensures r.themes == s.themes
    ensures a.SetTheme? || a.ToggleTheme? ==> r.(currentTheme := s.currentTheme) == s
    ensures a.SetTheme? ==> r.currentTheme == a.themeName
    ensures a.ToggleTheme? ==> r.currentTheme in {Light, Dark} && (r.currentTheme == Dark <==> s.currentTheme == Light)
    ensures a.SetFontSize? ==> r.fontSize == a.size && r.(fontSize := s.fontSize) == s
    ensures a.SetSidebarCollapsed? ==> r.sidebarCollapsed == a.collapsed && r.(sidebarCollapsed := s.sidebarCollapsed) == s
    ensures a.ResetTheme? ==> r == Initial.(themes := s.themes)
    ensures a.Unrecognized? ==> r == s
  {
    match a
    case SetTheme(name) => s.(currentTheme := name)
    case ToggleTheme => s.(currentTheme := if s.currentTheme == Light then Dark else Light)
    case SetFontSize(size) => s.(fontSize := size)
    case SetSidebarCollapsed(b) => s.(sidebarCollapsed := b)
    case ResetTheme => Initial.(themes := s.themes)
    case Unrecognized(_) => s
  }

  /** Toggling twice is the identity on a light or dark state; any other
      name becomes light after one toggle. */
  lemma ToggleTwice(s: ThemeState)
    ensures s.currentTheme in {Light, Dark} ==> Reduce(Reduce(s, ToggleTheme), ToggleTheme) == s
    ensures s.currentTheme !in {Light, Dark} ==> Reduce(s, ToggleTheme).currentTheme == Light
  {
  }

  /** Resetting keeps the theme table, and resetting again changes nothing. */
  lemma ResetIdempotent(s: ThemeState)
    ensures Reduce(s, ResetTheme).themes == s.themes
    ensures Reduce(Reduce(s, ResetTheme), ResetTheme) == Reduce(s, ResetTheme)
  {
  }

  // ---------------------------------------------------------------------------
  // The provider's commands

  /** What the provider can do to the store. Saved values are what local
      storage held (absent or empty counts as not saved); `darkPreferred` is
      whether the colour-scheme media query matched. */
  datatype Command =
    | SelectTheme(themeName: string)
    | Toggle
    | SelectFontSize(size: string)
    | CollapseSidebar(collapsed: bool)
    | Reset
    | Restore(savedTheme: Option<string>, savedFontSize: Option<string>, savedSidebar: Option<string>)
    | SystemPreference(savedTheme: Option<string>, darkPreferred: bool)

  /** `JSON.parse` of a saved sidebar flag; other texts leave the flag alone. */
  function ParseFlag(text: string): (b: Option<bool>)
    ensures b.Some? <==> text == "true" || text == "false"
    ensures b == Some(true) <==> text == "true"
  {
    if text == "true" then Some(true) else if text == "false" then Some(false) else None
  }

  /** The actions a command dispatches, in order. */
  function Dispatches(s: ThemeState, c: Command): (acts: seq<ThemeAction>)
    ensures forall i :: 0 <= i < |acts| && acts[i].SetTheme? ==>
      acts[i].themeName in s.themes || acts[i].themeName in {Light, Dark}
  {
    match c
    case SelectTheme(name) => if name in s.themes then [SetTheme(name)] else []
    case Toggle => [ToggleTheme]
    case SelectFontSize(size) => [SetFontSize(size)]
    case CollapseSidebar(b) => [SetSidebarCollapsed(b)]
    case Reset => [ResetTheme]
    case Restore(theme, size, sidebar) =>
      (if Truthy(theme) && theme.value in {Light, Dark} then [SetTheme(theme.value)] else [])
      + (if Truthy(size) then [SetFontSize(size.value)] else [])
      + (if Truthy(sidebar) && ParseFlag(sidebar.value).Some? then [SetSidebarCollapsed(ParseFlag(sidebar.value).value)] else [])
    case SystemPreference(theme, dark) =>
      if !Truthy(theme) then [SetTheme(if dark then Dark else Light)] else []
  }

  function RunActions(s: ThemeState, acts: seq<ThemeAction>): ThemeState
    decreases |acts|
  {
    if acts == [] then s else RunActions(Reduce(s, acts[0]), acts[1..])
  }

  function Execute(s: ThemeState, c: Command): ThemeState {
    RunActions(s, Dispatches(s, c))
  }

  function ExecuteAll(s: ThemeState, cs: seq<Command>): ThemeState
    decreases |cs|
  {
    if cs == [] then s else ExecuteAll(Execute(s, cs[0]), cs[1..])
  }

  /** The store's invariant: the table holds exactly the two themes and the
      current theme is one of them. */
  predicate Good(s: ThemeState) {
    s.themes == InitialThemes && s.currentTheme in {Light, Dark}
  }

  /** Dispatching actions never changes the theme table. */
  lemma {:induction false} RunActionsKeepsThemes(s: ThemeState, acts: seq<ThemeAction>)
    ensures RunActions(s, acts).themes == s.themes
    decreases |acts|
  {
    if acts != [] {
      RunActionsKeepsThemes(Reduce(s, acts[0]), acts[1..]);
    }
  }

  /** Actions that only name light or dark keep the invariant. */
  lemma {:induction false} RunActionsKeepsGood(s: ThemeState, acts: seq<ThemeAction>)
    requires Good(s)
    requires forall i :: 0 <= i < |acts| && acts[i].SetTheme? ==> acts[i].themeName in {Light, Dark}
    ensures Good(RunActions(s, acts))
    decreases |acts|
  {
    if acts != [] {
      assert forall i :: 1 <= i < |acts| ==> acts[1..][i - 1] == acts[i];
      RunActionsKeepsGood(Reduce(s, acts[0]), acts[1..]);
    }
  }

  /** Every command keeps the invariant: `setTheme` checks the table, the
      restore checks the name, and the system preference names a theme. */
  lemma CommandKeepsGood(s: ThemeState, c: Command)
    requires Good(s)
    ensures Good(Execute(s, c))
  {
    RunActionsKeepsGood(s, Dispatches(s, c));
  }

  /** From the initial state, every sequence of commands keeps the current
      theme light or dark. */
  lemma {:induction false} ReachableIsGood(s: ThemeState, cs: seq<Command>)
    requires Good(s)
    ensures Good(ExecuteAll(s, cs))
    decreases |cs|
  {
    if cs != [] {
      CommandKeepsGood(s, cs[0]);
      ReachableIsGood(Execute(s, cs[0]), cs[1..]);
    }
  }

  lemma InitialIsGood()
    ensures Good(Initial)
  {
  }

  /** The unguarded action would break the invariant: the guard matters. */
  lemma UnguardedSetThemeBreaksInvariant()
    ensures !Good(Reduce(Initial, SetTheme("solarized")))
    ensures Execute(Initial, SelectTheme("solarized")) == Initial
  {
  }

  /** A saved theme preference makes the system preference irrelevant. */
  lemma SavedThemeWins(s: ThemeState, saved: string, dark: bool)
    requires saved != []
    ensures Execute(s, SystemPreference(Some(saved), dark)) == s
  {
  }

  // ---------------------------------------------------------------------------
  // Mounting the provider

  /** Dispatching one list of actions after another. */
  lemma {:induction false} RunActionsAppend(s: ThemeState, a: seq<ThemeAction>, b: seq<ThemeAction>)
    ensures RunActions(s, a + b) == RunActions(RunActions(s, a), b)
    decreases |a|
  {
    if a == [] {
      assert a + b == b;
    } else {
      assert (a + b)[0] == a[0] && (a + b)[1..] == a[1..] + b;
      RunActionsAppend(Reduce(s, a[0]), a[1..], b);
    }
  }

  /** The theme the restore effect settles on: a saved light or dark theme,
      otherwise the initial one. */
  lemma RestoredTheme(saved: Option<string>, size: Option<string>, sidebar: Option<string>)
    ensures Execute(Initial, Restore(saved, size, sidebar)).currentTheme ==
      if Truthy(saved) && saved.value in {Light, Dark} then saved.value else Light
  {
    var t := if Truthy(saved) && saved.value in {Light, Dark} then [SetTheme(saved.value)] else [];
    var f := if Truthy(size) then [SetFontSize(size.value)] else [];
    var c := if Truthy(sidebar) && ParseFlag(sidebar.value).Some? then [SetSidebarCollapsed(ParseFlag(sidebar.value).value)] else [];
    assert Dispatches(Initial, Restore(saved, size, sidebar)) == t + f + c;
    RunActionsAppend(Initial, t + f, c);
    RunActionsAppend(Initial, t, f);
  }

  /** Mounting the provider as written. The effects run in order after the
      first render: the restore effect reads the saved preferences, the save
      effect writes the current theme (still the initial one, since no
      dispatch has been applied yet), and the system-preference effect then
      reads storage after that write. The queued dispatches apply in order. */
  function MountAsWritten(saved: Option<string>, size: Option<string>, sidebar: Option<string>, darkPreferred: bool): ThemeState {
    var storedWhenChecked := Some(Initial.currentTheme);
    RunActions(Initial, Dispatches(Initial, Restore(saved, size, sidebar))
      + Dispatches(Initial, SystemPreference(storedWhenChecked, darkPreferred)))
  }

  /** As written, the system colour scheme never takes effect on mount: the
      check always finds the theme the save effect just wrote. A first visit
      with a dark system scheme shows the light theme. */
  lemma SystemPreferenceIgnoredOnMount(saved: Option<string>, size: Option<string>, sidebar: Option<string>, darkPreferred: bool)
    ensures MountAsWritten(saved, size, sidebar, darkPreferred).currentTheme ==
      if Truthy(saved) && saved.value in {Light, Dark} then saved.value else Light
    ensures MountAsWritten(None, None, None, true).currentTheme == Light
  {
    forall sv: Option<string>, sz: Option<string>, sb: Option<string>, d: bool
      ensures MountAsWritten(sv, sz, sb, d) == Execute(Initial, Restore(sv, sz, sb))
    {
      var acts := Dispatches(Initial, Restore(sv, sz, sb));
      assert Dispatches(Initial, SystemPreference(Some(Initial.currentTheme), d)) == [];
      assert acts + [] == acts;
    }
    RestoredTheme(saved, size, sidebar);
    RestoredTheme(None, None, None);
  }

  /** Mounting as intended: the system-preference check reads storage as it
      was before the provider wrote to it. */
  function MountIntended(saved: Option<string>, size: Option<string>, sidebar: Option<string>, darkPreferred: bool): ThemeState {
    RunActions(Initial, Dispatches(Initial, Restore(saved, size, sidebar))
      + Dispatches(Initial, SystemPreference(saved, darkPreferred)))
  }

  /** With the intended order, a saved light or dark theme wins, nothing
      saved follows the system scheme, and the store stays good. */
  lemma MountFollowsSystemPreference(saved: Option<string>, size: Option<string>, sidebar: Option<string>, darkPreferred: bool)
    ensures var s := MountIntended(saved, size, sidebar, darkPreferred);
      && Good(s)
      && (Truthy(saved) && saved.value in {Light, Dark} ==> s.currentTheme == saved.value)
      && (!Truthy(saved) ==> s.currentTheme == if darkPreferred then Dark else Light)
  {
    var restore := Dispatches(Initial, Restore(saved, size, sidebar));
    var system := Dispatches(Initial, SystemPreference(saved, darkPreferred));
    RunActionsAppend(Initial, restore, system);
    RestoredTheme(saved, size, sidebar);
    var mid := Execute(Initial, Restore(saved, size, sidebar));
    CommandKeepsGood(Initial, Restore(saved, size, sidebar));
    CommandKeepsGood(mid, SystemPreference(saved, darkPreferred));
    assert Dispatches(mid, SystemPreference(saved, darkPreferred)) == system;
    if !Truthy(saved) {
      assert system == [SetTheme(if darkPreferred then Dark else Light)];
    } else {
      assert system == [];
    }
  }

  // ---------------------------------------------------------------------------
  // Reading the store

  /** `getCurrentTheme()`: the current theme with the `base` font size
      replaced by the scale's entry for the chosen size (missing when the
      scale has no such entry). The current theme must be in the table, or
      the provider would fail while rendering. In the model `Good`
      guarantees it; in the program an inherited name such as `toString`
      passes `setTheme`'s guard and breaks it. */
  function GetCurrentTheme(s: ThemeState): (t: ThemeDef)
    requires s.currentTheme in s.themes
    ensures var base := s.themes[s.currentTheme];
      && t.name == base.name && t.colors == base.colors
      && t.fontSizes.Keys == base.fontSizes.Keys + {BaseSize}
      && (forall k :: k in base.fontSizes && k != BaseSize ==> t.fontSizes[k] == base.fontSizes[k])
      && (s.fontSize in base.fontSizes ==> t.fontSizes[BaseSize] == base.fontSizes[s.fontSize])
      && (s.fontSize !in base.fontSizes ==> t.fontSizes[BaseSize] == None)
  {
    var base := s.themes[s.currentTheme];
    var size := if s.fontSize in base.fontSizes then base.fontSizes[s.fontSize] else None;
    base.(fontSizes := base.fontSizes[BaseSize := size])
  }

  /** With the default size the theme is handed out unchanged. */
  lemma DefaultSizeIsIdentity(s: ThemeState)
    requires s.currentTheme in s.themes && s.fontSize == BaseSize
    requires BaseSize in s.themes[s.currentTheme].fontSizes
    ensures GetCurrentTheme(s) == s.themes[s.currentTheme]
  {
    var base := s.themes[s.currentTheme];
    assert GetCurrentTheme(s).fontSizes == base.fontSizes;
  }

  /** Choosing `lg` makes the base size 1.125rem and leaves the rest of the
      scale alone; an unknown size leaves the base size undefined. */
  lemma ChosenSizeBecomesBase(s: ThemeState)
    requires Good(s)
    ensures GetCurrentTheme(Reduce(s, SetFontSize("lg"))).fontSizes[BaseSize] == Some("1.125rem")
    ensures GetCurrentTheme(Reduce(s, SetFontSize("huge"))).fontSizes[BaseSize] == None
    ensures GetCurrentTheme(Reduce(s, SetFontSize("huge"))).fontSizes["lg"] == Some("1.125rem")
  {
  }

  /** `isDark()` */
  predicate IsDark(s: ThemeState) {
    s.currentTheme == Dark
  }

  /** `isLight()` */
  predicate IsLight(s: ThemeState) {
    s.currentTheme == Light
  }

  /** In a good state exactly one of the two holds, and toggling swaps them. */
  lemma DarkXorLight(s: ThemeState)
    requires Good(s)
    ensures IsDark(s) != IsLight(s)
    ensures IsDark(Reduce(s, ToggleTheme)) == IsLight(s)
  {
  }
}

=== FILE: token_expiry.dfy ===
/**
 * The token-expiry logic of the authentication store
 * (`src/contexts/AuthContext.jsx`): the effect that runs whenever the token
 * changes and either logs out at once or arms one logout timer, and
 * `isTokenExpired`.
 *
 * The token is read without verifying it: the second `.`-separated segment
 * goes through `atob`, `JSON.parse` and a read of the `exp` claim (seconds
 * since the epoch, section 4.1.4 of RFC 7519). `atob` accepts the standard
 * base64 alphabet of section 4 of RFC 4648, not the URL-safe alphabet of
 * section 5, so a segment holding `-` or `_` fails to decode. Decoding and
 * parsing themselves are a parameter of the model.
 *
 * Times are integer milliseconds; `now` is the clock reading the effect sees.
 */
module TokenExpiry {
  import opened Common

  /** What reading the `exp` claim yields: a decode or parse failure (which
      the code catches), an integer number of seconds, or a payload without a
      numeric `exp` (which yields `NaN` rather than a failure). */
  datatype Claim = Malformed | Exp(seconds: int) | ExpNotNumber

  /** `token.split('.')[1]`, absent when the token has no `.` */
  function PayloadSegment(token: string): (seg: Option<string>)
    ensures seg.Some? <==> '.' in token
    ensures seg.Some? ==> |Split(token, '.')| >= 2 && seg.value == Split(token, '.')[1]
    ensures seg.Some? ==> '.' !in seg.value
  {
    SplitLength(token, '.');
    CountPositive(token, '.');
    var parts := Split(token, '.');
    if |parts| >= 2 then Some(parts[1]) else None
  }

  lemma {:induction false} CountPositive(s: string, c: char)
    ensures Count(c, s) > 0 <==> c in s
  {
    if s != [] {
      CountPositive(s[1..], c);
      assert c in s <==> s[0] == c || c in s[1..];
    }
  }

  /** Characters `atob` accepts: the standard base64 alphabet, padding, and
      the ASCII whitespace it strips. */
  predicate AtobChar(c: char) {
    ('A' <= c <= 'Z') || ('a' <= c <= 'z') || ('0' <= c <= '9') || c == '+' || c == '/' || c == '='
    || c == ' ' || c == '\t' || c == '\n' || c == '\r' || c == '\U{C}'
  }

  /** The claim of a token. `parse` stands for `atob`, `JSON.parse` and the
      read of `.exp` on a segment made of acceptable characters. */
  function ReadClaim(token: string, parse: string -> Claim): (c: Claim)
    ensures '.' !in token ==> c == Malformed
    ensures c != Malformed ==> forall i :: 0 <= i < |PayloadSegment(token).value| ==> AtobChar(PayloadSegment(token).value[i])
    ensures '.' in token && Base64Text(PayloadSegment(token).value) ==> c == parse(PayloadSegment(token).value)
  {
    match PayloadSegment(token)
    case None => Malformed
    case Some(seg) => if Base64Text(seg) then parse(seg) else Malformed
  }

  predicate Base64Text(s: string) {
    forall i :: 0 <= i < |s| ==> AtobChar(s[i])
  }

  /** A token assembled as `header.payload.signature` reads back the payload's
      claim, whatever the signature holds. */
  lemma PayloadOfAssembledToken(header: string, payload: string, signature: string, parse: string -> Claim)
    requires '.' !in header && '.' !in payload
    ensures PayloadSegment(header + "." + payload + "." + signature) == Some(payload)
    ensures Base64Text(payload) ==> ReadClaim(header + "." + payload + "." + signature, parse) == parse(payload)
    ensures !Base64Text(payload) ==> ReadClaim(header + "." + payload + "." + signature, parse) == Malformed
  {
    var token := header + "." + payload + "." + signature;
    assert token == header + ['.'] + (payload + ['.'] + signature);
    SplitConcat(header, payload + ['.'] + signature, '.');
    SplitConcat(payload, signature, '.');
    SplitWithout(header, '.');
    SplitWithout(payload, '.');
    assert token[|header|] == '.';
  }

  /** A URL-safe payload segment never decodes. */
  lemma UrlSafeSegmentIsMalformed(token: string, parse: string -> Claim)
    requires '.' in token
    requires '-' in PayloadSegment(token).value || '_' in PayloadSegment(token).value
    ensures ReadClaim(token, parse) == Malformed
  {
    var seg := PayloadSegment(token).value;
    var i :| 0 <= i < |seg| && (seg[i] == '-' || seg[i] == '_');
    assert !AtobChar(seg[i]);
    assert !Base64Text(seg);
  }

  /** What the expiry effect does for the token it sees. */
  datatype Decision =
    | Idle              // no (truthy) token: nothing to watch
    | LogoutNow         // expired or unreadable: log out at once
    | Arm(delayMs: int) // one timer, calling logout after the delay

  /** The expiry effect. A payload without numeric `exp` compares as `NaN`,
      so it arms a timer whose `NaN` delay the host treats as zero. */
  function Decide(token: Option<string>, claim: Claim, now: int): (d: Decision)
    ensures d.Idle? <==> !Truthy(token)
    ensures d.Arm? && claim.Exp? ==> d.delayMs > 0 && now + d.delayMs == claim.seconds * 1000
    ensures d.Arm? && !claim.Exp? ==> d.delayMs == 0
    ensures d.LogoutNow? <==> Truthy(token) && (claim.Malformed? || (claim.Exp? && claim.seconds * 1000 <= now))
  {
    if !Truthy(token) then Idle
    else match claim
      case Malformed => LogoutNow
      case Exp(seconds) =>
        var expiresAt := seconds * 1000;
        if expiresAt <= now then LogoutNow else Arm(expiresAt - now)
      case ExpNotNumber => Arm(0)
  }

  /** `isTokenExpired` at time `now`. */
  predicate IsTokenExpired(token: Option<string>, claim: Claim, now: int) {
    if !Truthy(token) then true
    else match claim
      case Malformed => true
      case Exp(seconds) => now >= seconds * 1000
      case ExpNotNumber => false
  }

  /** The effect and `isTokenExpired` share their boundary: for a present
      token with a numeric or unreadable claim, the effect logs out at once
      exactly when `isTokenExpired` holds. They part ways on a missing token
      (expired, yet nothing to log out) and on a non-numeric `exp` (never
      expired, yet the timer fires at once). */
  lemma DecideAgreesWithIsTokenExpired(token: Option<string>, claim: Claim, now: int)
    ensures Truthy(token) && !claim.ExpNotNumber?
      ==> (Decide(token, claim, now) == LogoutNow <==> IsTokenExpired(token, claim, now))
    ensures !Truthy(token) ==> IsTokenExpired(token, claim, now) && Decide(token, claim, now) == Idle
    ensures Truthy(token) && claim.ExpNotNumber?
      ==> !IsTokenExpired(token, claim, now) && Decide(token, claim, now) == Arm(0)
  {
  }

  // ---------------------------------------------------------------------------
  // The single logout timer

  /** The store's one logout timer slot: a deadline, or nothing armed. */
  datatype Timer = Disarmed | Armed(deadline: int)

  /** What the effect leaves behind when the token changes: the cleanup of
      the previous run has cancelled whatever was armed, so the new slot
      depends on the new token only; `logoutNow` says whether logout is
      called synchronously. */
  datatype Schedule = Schedule(timer: Timer, logoutNow: bool)

  /** The timer fires after the delay the host actually waits
      (`HostDelay`), which differs from the requested one when that does not
      fit a signed 32-bit integer. */
  function OnTokenChange(token: Option<string>, claim: Claim, now: int): (s: Schedule)
    ensures s.logoutNow ==> s.timer.Disarmed?
    ensures !Truthy(token) ==> s == Schedule(Disarmed, false)
    ensures s.timer.Armed? ==> now <= s.timer.deadline <= now + MaxTimerDelay
    ensures s.logoutNow <==> Decide(token, claim, now).LogoutNow?
    ensures s.timer.Armed? <==> Decide(token, claim, now).Arm?
    ensures s.timer.Armed? ==> s.timer.deadline == now + HostDelay(Decide(token, claim, now).delayMs)
  {
    match Decide(token, claim, now)
    case Idle => Schedule(Disarmed, false)
    case LogoutNow => Schedule(Disarmed, true)
    case Arm(delay) => Schedule(Armed(now + HostDelay(delay)), false)
  }

  /** Whether the armed timer has fired by time `t`. */
  predicate Fired(timer: Timer, t: int) {
    timer.Armed? && t >= timer.deadline
  }

  /** For a token that is still valid at `now` and expires within the
      host's longest timer delay, the timer fires exactly when
      `isTokenExpired` starts to hold: the session stays for the whole of
      `[now, exp*1000)` and is logged out at `exp*1000`. */
  lemma TimerFiresAtExpiry(token: Option<string>, seconds: int, now: int, t: int)
    requires Truthy(token) && now < seconds * 1000 && t >= now
    requires seconds * 1000 - now <= MaxTimerDelay
    ensures var s := OnTokenChange(token, Exp(seconds), now);
      && !s.logoutNow
      && s.timer == Armed(seconds * 1000)
      && (Fired(s.timer, t) <==> IsTokenExpired(token, Exp(seconds), t))
  {
  }

  /** An expired or unreadable token is logged out at once, with no timer. */
  lemma ExpiredLogsOutAtOnce(token: Option<string>, claim: Claim, now: int)
    requires Truthy(token) && IsTokenExpired(token, claim, now)
    ensures OnTokenChange(token, claim, now) == Schedule(Disarmed, true)
  {
  }

  // ---------------------------------------------------------------------------
  // Host timer delays

  /** The largest delay a host timer honours (2^31 - 1 milliseconds). */
  const MaxTimerDelay := 0x7FFF_FFFF

  /** The delay a browser actually waits for `setTimeout(f, d)`: `d` is
      converted to a signed 32-bit integer (wrapping modulo 2^32) and a
      negative result counts as zero. */
  function HostDelay(d: int): (w: int)
    ensures 0 <= w <= MaxTimerDelay
    ensures 0 <= d <= MaxTimerDelay ==> w == d
  {
    var m := d % 0x1_0000_0000;
    if m > MaxTimerDelay then 0 else m
  }

  /** A token valid for thirty more days is logged out at once: its delay
      does not fit the host's 32-bit timer, wraps to a negative number and
      fires immediately, although the token is not expired. */
  lemma LongLivedTokenLogsOutEarly()
    ensures var token, claim, now := Some("h.p.s"), Exp(2_592_000), 0;
      && OnTokenChange(token, claim, now) == Schedule(Armed(now), false)
      && !IsTokenExpired(token, claim, now)
  {
    assert 2_592_000_000 % 0x1_0000_0000 == 2_592_000_000;
  }

  /** A token valid for sixty more days is not logged out at once but after
      the delay's remainder modulo 2^32, about ten days: early all the same. */
  lemma SixtyDayTokenLogsOutAfterTenDays()
    ensures var token, claim, now := Some("h.p.s"), Exp(5_184_000), 0;
      && OnTokenChange(token, claim, now) == Schedule(Armed(889_032_704), false)
      && !IsTokenExpired(token, claim, 889_032_704)
  {
    assert 5_184_000_000 % 0x1_0000_0000 == 889_032_704;
  }

  /** The corrected timer: arm for at most `MaxTimerDelay`, and on firing
      decide again. The result is the time logout actually happens. */
  function LogoutTimeCapped(seconds: int, now: int): (t: int)
    ensures t == if seconds * 1000 <= now then now else seconds * 1000
    decreases seconds * 1000 - now
  {
    var expiresAt := seconds * 1000;
    if expiresAt <= now then now
    else
      var delay := expiresAt - now;
      var step := if delay <= MaxTimerDelay then delay else MaxTimerDelay;
      LogoutTimeCapped(seconds, now + HostDelay(step))
  }

  /** With capped re-arming, logout never happens while the token is valid,
      and happens exactly when it expires. */
  lemma CappedTimerLogsOutAtExpiry(token: Option<string>, seconds: int, now: int)
    requires Truthy(token)
    ensures var t := LogoutTimeCapped(seconds, now);
      && IsTokenExpired(token, Exp(seconds), t)
      && forall u :: now <= u < t ==> !IsTokenExpired(token, Exp(seconds), u)
  {
  }
}
